=== FILE: README.md ===
# Recruiter agent: a Dafny model of its pure core

The recruiter agent is a web application. A recruiter enters a candidate's
name, a resume and a job description. A LangGraph pipeline in the backend
then does the following:

- parses the job description and the resume with a language model;
- researches the candidate on the web;
- scores the fit;
- renders a markdown report.

The frontend keeps the run history in a Redux slice and shows it on a
history page. A stand-alone variant of the agent (`recruiter_agent/`) holds
its own candidate-search utilities.

This project models the sequential, deterministic logic of that system in
Dafny and proves properties of it. It covers:

- `AgentSlice` (agent_slice.dfy): the Redux `agent` reducer over
  `{runs, loading, error, currentRun}`, driven by the pending, fulfilled and
  rejected events of `fetchAgentRuns` and `runAgent` and by the
  `setCurrentRun` setter. The model includes the reducer's behaviour over
  whole event sequences.
- `RunAgentForm` (run_agent_form.dfy): the "run agent" page. This covers the
  file/text switch, choosing and removing files, and the ordered,
  first-error-wins validation that precedes building the multipart payload.
- `AgentHistory` (agent_history.dfy): the history page helpers. These are
  the avatar initials, the match score, the badge and progress-bar colours,
  the fallback fit label and the expanded-run list.
- `CandidateSearch` (candidate_search.dfy): the stand-alone agent's search
  utilities. These are:
  - URL normalisation;
  - username extraction with reserved words;
  - the search data read from a parsed resume;
  - confidence filtering;
  - query clean-up, de-duplication and fallback;
  - the integer relevance score and the filtering based on it.
- `AgentNodes` (agent_nodes.dfy): the four backend graph nodes, with every
  language-model, search and page-fetch call replaced by its outcome. What
  remains is the glue the nodes implement themselves:
  - the keys each node writes;
  - the fallback records;
  - the candidate-name rule;
  - the username map;
  - the accumulation, ordering and refetching of research results;
  - the experience lines;
  - the GitHub-project check.
- `AgentGraph` (agent_graph.dfy):
  - the linear edge order;
  - the initial state of a run;
  - the end-to-end state after the four nodes;
  - the markdown report of `format_output`;
  - the extension-based choice of text extractor;
  - the assembly of PDF and DOCX text.
- Shared modules:
  - `Wrappers`: `Option` and `Result`.
  - `Text`: Python/JavaScript string helpers such as `split`, `join`,
    `strip` and ASCII case mapping, with their round-trip lemmas.
  - `Sorting`: list comprehension filtering and Python's stable
    `sort(reverse=True)`, with a stability proof.
  - `RecruiterTypes`: the pydantic records and the graph state.

Modelling decisions:

- **Runs are single requests.** `frontend/src/store/index.ts` (lines
  74-91) declares a `TaskStatus` type and `pollingActive` and `currentTask`
  fields. No thunk, timer or reducer uses them, and the `agent` slice's own
  state has none of them, so they are not modelled. A run is a single
  request that either fulfils or rejects. On every rejection path the
  reducer stores a non-empty, human-readable message, with a default
  substituted when the error has none.
- **Graph state.** The graph state is a map from the `Key` datatype, one
  constructor per dictionary key, to the `Value` datatype. LangGraph writes
  a node's returned dictionary back one schema field at a time. `usernames`
  (returned by `web_research_node`) and `formatted_output` (returned by
  `fit_score_node`) are not fields of the graph's `State` schema, so they
  do not survive into the next node or the final result. `AgentGraph.Keep`
  models that write-back. It agrees with the command-line `main()` of
  `backend/recruiter_agent/graph.py` (line 250), which renders the report
  again from `fit_assessment` instead of reading `formatted_output`.
- **Foreign calls.** Every foreign call becomes an input: an `Option` whose
  `None` means the call raised, or a function parameter. This covers the
  language model, Tavily search, page fetching, and the backend utilities
  module's `extract_username_from_url`, `calculate_result_relevance` and
  `format_output` (the scorer's renderer, passed as `render`; the
  `format_output` of graph.py is modelled separately as
  `AgentGraph.FormatOutput`). Regular expressions are uninterpreted:
  `re.findall` results arrive as a list, and `re.search(...).group(1)` is a
  `search(pattern, url)` parameter.

## Model

| member | source | states |
|---|---|---|
| AgentSlice.Initial | frontend/src/store/slices/agentSlice.ts:68-73 | the store starts with no runs, not loading, no error and no current run |
| AgentSlice.ErrorText | frontend/src/store/slices/agentSlice.ts:120-123 | the stored error message is never empty: the thrown message when it is present and non-empty, else the fixed default |
| AgentSlice.Reduce | frontend/src/store/slices/agentSlice.ts:106-136 | for each event, exactly the fields its handler assigns change. Pending sets loading and clears the error. Fetch-fulfilled replaces the run list wholesale. Run-fulfilled selects the new run and puts it in front of the old list, which grows by one. A rejection stores a non-empty error without touching the runs or the current run. The setter changes only the current run |
| AgentSlice.LoadingIffLastRequestPending | frontend/src/store/slices/agentSlice.ts:112-136 | after any event sequence from the initial state, the loading flag is set exactly when the latest request event is a pending one |
| AgentSlice.ErrorIsLastRejection | frontend/src/store/slices/agentSlice.ts:112-136 | after any event sequence, an error is present exactly when the latest pending-or-rejected event is a rejection, and it is that rejection's message or default; fulfilled events leave an earlier error in place |
| AgentSlice.CurrentRunIsLastSelected | frontend/src/store/slices/agentSlice.ts:106-132 | after any event sequence, the current run is the one named by the latest `setCurrentRun` or successful `runAgent`, or none |
| AgentSlice.RunsOnlyFromFulfilled | frontend/src/store/slices/agentSlice.ts:112-136 | from any state, the run list after a sequence of events equals the run list after only its fulfilled events: pending, rejected and setter events never affect it |
| RunAgentForm.InitialForm | frontend/src/pages/RunAgent.tsx:34-40 | the page starts with empty name and texts, no files, and both documents in file mode |
| RunAgentForm.SwitchChecked | frontend/src/pages/RunAgent.tsx:262 | the switch shows checked exactly in file mode |
| RunAgentForm.MethodFromSwitch | frontend/src/pages/RunAgent.tsx:263 | checking the switch selects file mode and unchecking it selects text mode |
| RunAgentForm.SwitchRoundTrip | frontend/src/pages/RunAgent.tsx:262-263 | toggling the switch shown for a mode gives the mode back, and the switch displayed for the chosen mode is the one toggled |
| RunAgentForm.SelectFile | frontend/src/pages/RunAgent.tsx:52-71 | the chosen file fills the targeted slot with its name, MIME type and size and no preview; the other slot and every typed input are unchanged |
| RunAgentForm.RemoveFile | frontend/src/pages/RunAgent.tsx:73-79 | removing resets only the targeted slot to the empty item; the other slot and every typed input are unchanged |
| RunAgentForm.RemoveAfterSelect | frontend/src/pages/RunAgent.tsx:52-79 | removing a file just chosen gives the same form as removing without choosing |
| RunAgentForm.Submit | frontend/src/pages/RunAgent.tsx:121-167 | submission fails exactly when some check fails, and reports the first failing check in page order. An empty name always reports the name message. It succeeds exactly when the name is non-empty and each document is provided in its mode. The payload is then exactly three entries in order: the name, the resume and the job description, each document being the file in file mode and the text in text mode |
| RunAgentForm.JobDescriptionCheckedLast | frontend/src/pages/RunAgent.tsx:121-146 | a job-description complaint implies the name and the resume passed their checks |
| RunAgentForm.TypedTextSatisfiesResumeCheck | frontend/src/pages/RunAgent.tsx:127-146 | with a name given, switching the resume to text mode and typing something leaves only job-description complaints possible |
| AgentHistory.DisplayName | frontend/src/pages/AgentHistory.tsx:37 | the displayed name is never empty: the run's candidate name when present and non-empty, else "User" |
| AgentHistory.Initials | frontend/src/pages/AgentHistory.tsx:36-43 | the initials contain no lower-case letter |
| AgentHistory.HeadsOfSplit | frontend/src/pages/AgentHistory.tsx:38-41 | taking the first character of each piece of a split on spaces is the same as picking the characters that start a word |
| AgentHistory.InitialsAreWordStarts | frontend/src/pages/AgentHistory.tsx:36-43 | the initials are the upper-cased first characters of the words of the display name, in order; empty pieces from repeated spaces contribute nothing |
| AgentHistory.MatchScore | frontend/src/pages/AgentHistory.tsx:45-47 | the score is 0 when the output, the assessment, the score details or the percentage is missing, and the percentage otherwise |
| AgentHistory.ScoreColor | frontend/src/pages/AgentHistory.tsx:49-53 | the badge colour partitions scores: green from 80, amber in [50, 80), red below 50 |
| AgentHistory.ScoreColorMonotone | frontend/src/pages/AgentHistory.tsx:49-53 | a higher score never gets a worse badge colour |
| AgentHistory.ProgressColor | frontend/src/pages/AgentHistory.tsx:157-160 | the progress bar partitions scores: green from 80, amber in [60, 80), red below 60 |
| AgentHistory.ProgressDiffersFromBadge | frontend/src/pages/AgentHistory.tsx:157-160 | the bar and the badge disagree exactly for scores in [50, 60), where the badge is amber and the bar red |
| AgentHistory.FitLabel | frontend/src/pages/AgentHistory.tsx:142-144 | the assessment's own fit score is shown when present and non-empty; otherwise the label is derived from the match score |
| AgentHistory.FallbackLabelFollowsProgressColor | frontend/src/pages/AgentHistory.tsx:142-160 | the fallback label is "Strong Fit", "Moderate Fit" or "Low Fit" exactly when the progress bar is green, amber or red |
| AgentHistory.ExpandFromQuery | frontend/src/pages/AgentHistory.tsx:25-29 | a present, non-empty `id` query parameter is appended after the runs already expanded; otherwise the list is unchanged |
| CandidateSearch.NormalizeUrl | recruiter_agent/nodes.py:197-200 | every normalised URL has an http or https scheme; a URL that has one is unchanged, and any other gets exactly `https://` in front |
| CandidateSearch.NormalizeUrlIdempotent | recruiter_agent/nodes.py:197-200 | normalising twice is normalising once |
| CandidateSearch.ExtractLinks | recruiter_agent/nodes.py:193-202 | one URL per match, in match order, each with a scheme and otherwise equal to its match |
| CandidateSearch.FirstAcceptable | recruiter_agent/nodes.py:239-247 | the result is the first capture that exists and is not reserved, and nothing exactly when there is no such capture |
| CandidateSearch.GithubUsername | recruiter_agent/nodes.py:227-247 | never one of the nine reserved GitHub path words |
| CandidateSearch.LinkedinUsername | recruiter_agent/nodes.py:250-264 | nothing exactly when neither pattern matches; the standard-profile capture wins when it exists |
| CandidateSearch.TwitterUsername | recruiter_agent/nodes.py:267-280 | never one of the seven reserved Twitter/X path words |
| CandidateSearch.ReservedGithubPathFallsThrough | recruiter_agent/nodes.py:239-247 | when the profile pattern captures a reserved word, the organisation and gist patterns decide the result |
| CandidateSearch.PresentValues | recruiter_agent/nodes.py:783-813 | exactly the non-empty values are kept; no empty string is kept and no non-empty value is lost |
| CandidateSearch.PresentValuesConcat | recruiter_agent/nodes.py:783-813 | keeping values commutes with concatenation, so the input order is preserved |
| CandidateSearch.FirstTitle | recruiter_agent/nodes.py:790-800 | the job title is the first non-empty title of the experience list, and empty exactly when no entry has one |
| CandidateSearch.ResumeSearchData | recruiter_agent/nodes.py:765-819 | the name is the personal name or "". Companies and schools are the non-empty values in order. Skills are copied. The unique ids stay empty. The job title is the first title present |
| CandidateSearch.ResumeSearchDataExtends | recruiter_agent/nodes.py:783-800 | appending an experience entry only appends its company and never changes a title already found |
| CandidateSearch.FirstTitleOfPrefix | recruiter_agent/nodes.py:790-800 | once a title is found, later entries cannot change it |
| CandidateSearch.TagAll | recruiter_agent/nodes.py:836-851 | each result is tagged with its own confidence, in order |
| CandidateSearch.FilterSearchResults | recruiter_agent/nodes.py:822-856 | every kept result reaches the threshold and carries its own confidence, and the list is sorted by non-increasing confidence |
| CandidateSearch.FilterSearchResultsIsStable | recruiter_agent/nodes.py:853-854 | kept results with equal confidence appear in their input order, as the stable sort keeps them |
| CandidateSearch.FilterSearchResultsKeepsExactly | recruiter_agent/nodes.py:848-851 | a result survives, as often as it occurs in the input, exactly when its confidence reaches the threshold; nothing else survives |
| Text.Strip | recruiter_agent/nodes.py:721 | the stripped text is the contiguous part of the input between the leading and trailing whitespace, and starts and ends with non-whitespace |
| CandidateSearch.CleanLines | recruiter_agent/nodes.py:721 | the cleaned queries are the stripped lines, in order, with the blank ones dropped (a reference written as a map then a filter); none is blank or has surrounding whitespace |
| CandidateSearch.CleanLinesMembers | recruiter_agent/nodes.py:721 | a string is a cleaned query exactly when it is non-blank and is some line stripped |
| CandidateSearch.Dedup | recruiter_agent/nodes.py:724 | the de-duplicated list has no repeats and the same elements as the input, each placed in order of first occurrence |
| CandidateSearch.FallbackQueries | recruiter_agent/nodes.py:736-752 | 4 to 7 queries, all starting with the name. The first four are the fixed github, linkedin, conference-talk and blog-post ones, and one more follows for each non-empty list of companies, schools and skills |
| CandidateSearch.FallbackOptionalQueries | recruiter_agent/nodes.py:743-750 | the optional queries are name + first company, then name + first school, then name + first skill, each present only when its list is non-empty |
| CandidateSearch.GenerateSearchQueries | recruiter_agent/nodes.py:715-752 | a failed model call gives the fallback list. Otherwise the queries are the non-blank cleaned lines of the reply, without repeats, none lost, and ordered by first occurrence |
| CandidateSearch.UidValueOfTagged | recruiter_agent/nodes.py:498 | splitting `platform:username` at the first colon gives back the username, whatever it contains |
| CandidateSearch.Tagged | recruiter_agent/nodes.py:315-316 | an identifier is produced exactly for a present, non-empty username, and its value after the colon is that username |
| CandidateSearch.UrlIdentifiers | recruiter_agent/nodes.py:312-336 | a URL contributes at most three identifiers, each with the colon the score splits on, and none when it mentions no known site |
| CandidateSearch.ProfileIdentifiers | recruiter_agent/nodes.py:311-336 | every gathered identifier can be split at a colon, so the relevance score never fails on one |
| CandidateSearch.NamePoints | recruiter_agent/nodes.py:480-485 | 5 points when every word of the name is in the first 500 characters, else 2 when some word is, else 0 |
| CandidateSearch.Relevance | recruiter_agent/nodes.py:477-500 | the score is a non-negative integer bounded by 5 + 3 per company and school + 10 per identifier |
| CandidateSearch.CountFoundIsFilter | recruiter_agent/nodes.py:488-494 | the count is the number of names, lower-cased, that occur in the searched text, each counted once per occurrence in the list |
| CandidateSearch.CountUidHitsIsFilter | recruiter_agent/nodes.py:496-500 | the count is the number of identifiers whose value after the colon, lower-cased, occurs in the URL or the first 500 characters |
| CandidateSearch.RelevanceScore | recruiter_agent/nodes.py:477-500 | the score is exactly the name points from the first 500 characters, plus 3 for each company and each school found in the first 1000, plus 10 for each identifier found in the URL or the first 500 |
| CandidateSearch.IdentifierHitIsKept | recruiter_agent/nodes.py:496-503 | a hit in which some profile identifier appears is always kept |
| CandidateSearch.PartialNameAloneIsDropped | recruiter_agent/nodes.py:480-503 | a hit sharing only part of the name, with no company, school or identifier, is dropped |
| CandidateSearch.BlankNameKeepsEverything | recruiter_agent/nodes.py:481-483 | a blank candidate name counts as fully matched, so every hit scores at least 5 and is kept |
| CandidateSearch.Record | recruiter_agent/nodes.py:504-510 | the stored hit keeps at most 300 characters of content and carries the hit's score |
| CandidateSearch.FilterByRelevance | recruiter_agent/nodes.py:470-514 | the result is a rearrangement of exactly the records of the hits scoring at least 3, with each record of the hits present or absent by that test, sorted by non-increasing relevance |
| CandidateSearch.FilterByRelevanceIsStable | recruiter_agent/nodes.py:513-514 | kept records with equal scores appear in the order of their hits |
| CandidateSearch.KeptRecords | recruiter_agent/nodes.py:503-510 | filtering keeps a hit's record exactly when it scores at least 3, and keeps nothing scoring less |
| CandidateSearch.ContextHits | recruiter_agent/nodes.py:518 | at most three hits reach the context, a prefix of the kept list, and no hit left out is more relevant than one taken |
| Sorting.SortDesc | recruiter_agent/nodes.py:513-514 | the sorted list is a permutation of the input with non-increasing keys |
| Sorting.SortDescIsStable | recruiter_agent/nodes.py:513-514 | the sort is stable: elements with equal keys keep their input order |
| Sorting.MapKeepsPermutation | backend/recruiter_agent/nodes.py:207-216 | applying one function to each element of two rearrangements of a list gives two rearrangements of one list, which carries the sort's permutation through refetching |
| RecruiterTypes.TextOr | backend/recruiter_agent/nodes.py:62 | a missing key gives the default, a present text entry gives its text |
| AgentNodes.ParseJdNode | backend/recruiter_agent/nodes.py:38-54 | the node adds or overwrites only `jd_structured`: the parsed job description, or on failure the "Unknown Position" record with no location or preferred qualifications and empty lists |
| AgentNodes.FallbackResume | backend/recruiter_agent/nodes.py:103-112 | the fallback resume carries only the given name: empty education, experience and skills, and no certifications or projects |
| AgentNodes.ParsedName | backend/recruiter_agent/nodes.py:96-98 | a non-empty incoming name is kept; an empty one is replaced by the parsed resume's name |
| AgentNodes.ParseResumeNode | backend/recruiter_agent/nodes.py:57-114 | on success the node adds only the parsed resume, the name and the extracted links. On failure it adds only the fallback resume, named by the incoming name or "Unknown", and the incoming name. `extracted_urls` is written only on success |
| AgentNodes.ResumeNodeNameNonEmpty | backend/recruiter_agent/nodes.py:96-114 | the name leaving the resume node is non-empty whenever the incoming name or the parsed name is |
| AgentNodes.Usernames | backend/recruiter_agent/nodes.py:137-141 | no platform maps to an empty username |
| AgentNodes.LastUsername | backend/recruiter_agent/nodes.py:137-141 | a reference reading: the username, if any, of the last URL that yields one for the platform |
| AgentNodes.UsernamesKeepLast | backend/recruiter_agent/nodes.py:137-141 | the map has an entry for a platform exactly when some URL yields one, and that entry is the last such URL's username: later URLs overwrite earlier ones |
| AgentNodes.DirectResults | backend/recruiter_agent/nodes.py:147-162 | the entries are exactly the fetchable resume URLs, in order, each with its page's title, the page's content cut to 300 characters, relevance 10 and source `direct_url` |
| AgentNodes.DirectResultsCoverFetched | backend/recruiter_agent/nodes.py:147-162 | a resume URL has a direct entry if and only if its page could be fetched |
| AgentNodes.AddHit | backend/recruiter_agent/nodes.py:182-199 | a hit whose URL is already present, or that scores below 3, changes nothing; a failed scoring call of a new hit abandons the query; any other hit is appended once, scored and cut to 300 characters |
| AgentNodes.AddHitKeepsUrlsDistinct | backend/recruiter_agent/nodes.py:183-185 | adding a hit never repeats a non-empty URL |
| AgentNodes.AddHits | backend/recruiter_agent/nodes.py:181-199 | the hits of one query only append entries, each scoring at least 3 and sourced from search |
| AgentNodes.FailureKeepsPrefix | backend/recruiter_agent/nodes.py:168-204 | when scoring a hit raises, the query keeps what the hits before it appended and ignores the hits after it, because the `try` encloses the whole loop |
| AgentNodes.AddHitsKeepsUrlsDistinct | backend/recruiter_agent/nodes.py:181-199 | a query's hits never repeat a non-empty URL |
| AgentNodes.AddAnswers | backend/recruiter_agent/nodes.py:168-205 | across all queries, earlier entries are never changed and every appended entry scores at least 3; a search call that raises adds nothing for its query |
| AgentNodes.AddAnswersKeepsUrlsDistinct | backend/recruiter_agent/nodes.py:168-205 | across all queries, the accumulated results never repeat a non-empty URL |
| AgentNodes.Refetch | backend/recruiter_agent/nodes.py:209-216 | only the content changes, and only for search-sourced entries among the first five whose page can be fetched; direct results and later entries are unchanged |
| AgentNodes.CollectedAreWellScored | backend/recruiter_agent/nodes.py:147-205 | every collected result scores at least 3, and direct results score 10 |
| AgentNodes.SortKeepsWellScored | backend/recruiter_agent/nodes.py:206-207 | sorting by relevance preserves those score bounds |
| AgentNodes.ResearchResults | backend/recruiter_agent/nodes.py:147-216 | the final result list has as many entries as were collected and, apart from refetched content, is a rearrangement of them; it is sorted by non-increasing relevance, every entry scores at least 3, and direct results score 10 |
| AgentNodes.ResearchUrlsDistinct | backend/recruiter_agent/nodes.py:147-205 | with distinct resume URLs, the collected results never hold two entries with the same non-empty URL |
| AgentNodes.DirectResultsDistinct | backend/recruiter_agent/nodes.py:147-162 | distinct resume URLs give direct results with distinct URLs |
| AgentNodes.WebResearchNode | backend/recruiter_agent/nodes.py:136-277 | the node adds only the research summary, or the "No verified ..." fallback, and the username map; with stored URLs the map is the one built from those URLs, where a later URL's username replaces an earlier one for its platform, and with none it is empty |
| AgentNodes.ExperienceLine | backend/recruiter_agent/nodes.py:303-313 | for each of the six combinations of start date, end date and description being set, the exact line: "title at company", then " (start to end)" when both dates are set or " (from start to Present)" when only the start is, then ": description" when it is set |
| AgentNodes.ExperienceLineParts | backend/recruiter_agent/nodes.py:303-313 | read back, every line starts with the role, the date part follows the role, and a set description ends the line |
| AgentNodes.ExperienceLines | backend/recruiter_agent/nodes.py:302-313 | one line per experience entry, in order |
| AgentNodes.HasGithubProjects | backend/recruiter_agent/nodes.py:316-318 | true exactly when some repository entry differs from the "No verified repositories found" sentinel |
| AgentNodes.FallbackHasNoGithubProjects | backend/recruiter_agent/nodes.py:269-273 | the fallback research never counts as GitHub evidence |
| AgentNodes.FitScoreNode | backend/recruiter_agent/nodes.py:389-399 | a failing assessment call fails the node, and the other unguarded calls are assumed not to raise; otherwise it adds only the assessment and its rendered report |
| AgentGraph.Successor | backend/recruiter_agent/graph.py:37-41 | every node but END has exactly the successor its edge names, one step further from START |
| AgentGraph.Walk | backend/recruiter_agent/graph.py:37-41 | following the edges from any node reaches END after the number of steps its position leaves |
| AgentGraph.PipelineIsLinear | backend/recruiter_agent/graph.py:36-41 | the graph is one chain: no node has two outgoing or two incoming edges, and a run visits START, JDParser, ResumeParser, WebResearcher, FitScorer, END in that order |
| AgentGraph.InitialState | backend/recruiter_agent/graph.py:185-189 | a run starts with exactly the keys `candidate_name`, `job_description` and `resume_text`, holding the inputs |
| AgentGraph.Keep | backend/recruiter_agent/graph.py:17-26 | writing a node's result back keeps exactly the schema keys, dropping `usernames` and `formatted_output` |
| AgentGraph.KeepAddsOnly | backend/recruiter_agent/graph.py:17-28 | a node that adds only some keys, written back, adds only the schema part of them |
| AgentGraph.ResumeStep | backend/recruiter_agent/graph.py:32 | the written-back resume node adds the resume, the name and, on success only, the links; a non-empty incoming name survives |
| AgentGraph.WebStep | backend/recruiter_agent/graph.py:33 | the written-back research node adds only `web_structured` |
| AgentGraph.ResearchedResult | backend/recruiter_agent/graph.py:37-40 | the first three nodes add the parsed job description, resume, name and research, plus the links exactly when the resume parsed. Every other entry is kept, and a non-empty incoming name survives |
| AgentGraph.ScoreStep | backend/recruiter_agent/graph.py:34 | the written-back scorer adds only `fit_assessment`, holding the assessment |
| AgentGraph.RunGraphAddsOnly | backend/recruiter_agent/graph.py:185-191 | a failing assessment call fails the run, and the other unguarded calls are assumed not to raise. Otherwise it adds to its input state only the four structured results, the name and (when the resume parsed) the links, and it keeps a non-empty incoming name |
| AgentGraph.RunGraphKeys | backend/recruiter_agent/graph.py:185-191 | a finished run holds the three inputs and the four structured results, holds `extracted_urls` exactly when the resume parsed, and holds neither `usernames` nor `formatted_output` |
| AgentGraph.RunGraphKeepsInputs | backend/recruiter_agent/graph.py:185-191 | a finished run still holds the original job description and resume text, keeps a non-empty candidate name, and carries the assessment |
| AgentGraph.Mark | backend/recruiter_agent/graph.py:165-166 | a matrix cell shows the check mark exactly when its boolean is true, and the cross mark otherwise |
| AgentGraph.MatrixRows | backend/recruiter_agent/graph.py:164-167 | one row per comparison entry, in input order, each built from that entry alone |
| AgentGraph.FormatOutput | backend/recruiter_agent/graph.py:145-172 | the report opens with the "# Candidate Assessment: " heading line and closes with the "## Detailed Assessment" line followed by the reasoning |
| AgentGraph.ReportLines | backend/recruiter_agent/graph.py:145-172 | the report has 13 + n physical lines for n comparison entries. Line 0 is the heading, lines 8-9 the matrix header and rule, line 10 + i the i-th matrix row, and the last two lines the detailed heading and the reasoning |
| AgentGraph.FormatOutputIsLines | backend/recruiter_agent/graph.py:145-172 | joining the parts with newlines is the same as joining the physical lines: the embedded newlines become blank lines |
| AgentGraph.ReportLinesHaveNoNewline | backend/recruiter_agent/graph.py:145-172 | when no field of the assessment spans lines, no physical line holds a newline |
| AgentGraph.ReportSplitsIntoLines | backend/recruiter_agent/graph.py:145-172 | read back line by line, the report gives exactly its physical lines, provided no field spans lines |
| AgentGraph.Extension | backend/recruiter_agent/graph.py:121 | the extension is empty or a dot-led suffix of the path without further dots or slashes |
| AgentGraph.ExtensionOfName | backend/recruiter_agent/graph.py:121 | a file `base.e` has extension `.e` |
| AgentGraph.ExtractorFor | backend/recruiter_agent/graph.py:121-132 | the PDF, DOCX and text readers are chosen exactly for the lower-cased extensions .pdf, .docx and .txt |
| AgentGraph.ExtractTextFromFile | backend/recruiter_agent/graph.py:111-132 | each supported extension gets its reader's text, and anything else gives "" |
| AgentGraph.UpperCasePdfDispatches | backend/recruiter_agent/graph.py:121-124 | `CV.PDF` and `cv.pdf` both go to the PDF extractor |
| AgentGraph.LinkTarget | backend/recruiter_agent/graph.py:73-81 | an annotation yields a link exactly when it is a `/Link` with a `/URI` action |
| AgentGraph.PdfText | backend/recruiter_agent/graph.py:65-87 | an unreadable file gives "". Otherwise the text is each page's text followed by a newline, then the links marker, then the links joined by newlines |
| AgentGraph.PdfLinksRoundTrip | backend/recruiter_agent/graph.py:83 | the part after the links marker reads back, line by line, as the links, provided there is at least one and none spans lines |
| AgentGraph.DocxText | backend/recruiter_agent/graph.py:100-108 | an unreadable document gives ""; otherwise the paragraphs plus one empty piece, joined by newlines |
| AgentGraph.DocxParagraphsRoundTrip | backend/recruiter_agent/graph.py:100-105 | read back line by line, single-line paragraphs come back in order, followed by one empty line |

## Left out

- The `TaskStatus` type and the `pollingActive` and `currentTask` fields of `frontend/src/store/index.ts` (lines 74-91): no code uses them, so they are not modelled.
- Network and database plumbing: the HTTP requests of the two thunks, the backend API, the application entry points, MongoDB, temporary files and configuration. The thunks appear only as their pending, fulfilled and rejected events. A rejection's message is an input.
- Language-model calls, Tavily search, page fetching, `extract_username_from_url` and `calculate_result_relevance`. These are inputs, and the prompts built for them are not modelled.
- Regular-expression semantics of the URL and username patterns. Matching is an input; only the post-processing is modelled.
- `verify_candidate_identity` and its floating-point score: `filter_search_results` takes the scoring function as a parameter.
- `formatFileSize`, the locale date formatting of the history page, and the `:.1f` and `str` rendering of the two numbers in the report. The report takes them as already rendered strings.
- UI rendering, toasts, navigation, routing, theming and the dashboard page. `handleSubmit` is modelled up to the dispatch.
- The stand-alone agent's own nodes (`parse_jd_node`, `parse_resume_node`, `fit_score_node`, and the query building, context assembly and prompt of its `web_research_node`), its `safe_get_url_content`, and `web_contents` in the backend research node. Only the stand-alone agent's inline relevance score and filtering are modelled.
- The backend research node's `search_context` log and `web_contents` prompt material. Its collected results feed only the prompt, so `AgentNodes.ResearchResults` is modelled as a value and not stored in the state.
- Text.Lower: case mapping is ASCII only. Python's `lower`/`upper` and JavaScript's `toUpperCase` also map non-ASCII letters, which matters only for names and extensions outside ASCII.
- RunAgentForm.SelectFile: a change or drop event without a file leaves the form unchanged in the source; the model covers only a chosen file.
- AgentHistory.Initials: `part[0]` in JavaScript takes a UTF-16 code unit; the model takes a whole character.
- AgentHistory.MatchScore: the `|| 0` of the page also maps a stored `NaN` to 0; the model's real numbers have no `NaN`.
- CandidateSearch.ResumeSearchData: when no experience entry has a non-empty title, the source's `job_title` may end as `None` rather than "" (an entry with `title: None`). It may also return a `None` name when the key holds `None`. The model gives "" in both cases. All of these are falsy, so the tests on them agree. The f-strings of the fallback queries (recruiter_agent/nodes.py:737-750) do not: a `None` name gives "None github" where the model gives " github".
- CandidateSearch.GenerateSearchQueries: the prompt and `num_queries` are not modelled. The reply text, or its absence, is the input. `create_llm()` (recruiter_agent/nodes.py:670) runs outside the `try`; if it raises, the function raises instead of falling back, which the model does not represent.
- CandidateSearch.FilterByRelevance: a hit's fields are strings or missing. A key holding `None`, or a result that is not a dictionary, makes `.get(...).lower()` raise (recruiter_agent/nodes.py:472-474); the `except` at :527 then drops the whole query's `filtered_results` before the `extend` at :523. The model does not produce such hits.
- AgentGraph.RunGraphAddsOnly: only the assessment call may fail. The other calls the backend nodes make without a `try` are taken never to raise, though each one raising would end the run: `create_llm()` (backend/recruiter_agent/nodes.py:18, 67, 219, 290), the `TavilySearch` constructor (:126), `extract_links_from_text` (:65), `extract_username_from_url` (:139), `get_url_content` (:149, :212), `generate_search_queries` (:165) and the renderer `format_output` (:395).
- AgentNodes.FitScoreNode: `create_llm()` (backend/recruiter_agent/nodes.py:290) and the renderer `format_output` (:395) are unguarded in the source but taken never to raise; only the assessment call fails the node.
- AgentNodes.AddAnswers: a hit's fields are strings or missing. A present but `None` content, or a result that is not a dictionary, would raise in the `[:300]` slice or in `get` and end the query like a failed scoring call; the model does not produce such hits.
- CandidateSearch.FilterSearchResults: the source writes `confidence` into the caller's own result dictionaries (recruiter_agent/nodes.py:848), so the input list changes too; the model leaves its input alone and returns new `Scored` records.
- AgentGraph.Extension: POSIX `os.path.splitext` only; Windows drive letters and backslashes are not modelled.
- AgentGraph.ExtractTextFromFile: the `.txt` branch's own read errors are not caught in the source and are not modelled. The reader is a parameter.
- AgentGraph.PdfText: a `/URI` value is taken to be a string. A non-string value would make the join raise and the function return "", which is not modelled.

=== FILE: agent_graph.dfy ===
/** The backend recruiting graph around the nodes: the fixed edge order, the
    initial state of a run, the end-to-end state after all four nodes, the
    markdown report, the extension-based choice of text extractor, and the
    assembly of a PDF's page text and link targets. */
module AgentGraph {
  import opened Wrappers
  import opened Text
  import opened RecruiterTypes
  import AgentNodes

  // ------------------------------------------------------------ pipeline

  datatype GraphNode = Start | JDParser | ResumeParser | WebResearcher | FitScorer | End

  /** The edges added to the workflow, in the order they are added. */
  const Edges: seq<(GraphNode, GraphNode)> := [
    (Start, JDParser),
    (JDParser, ResumeParser),
    (ResumeParser, WebResearcher),
    (WebResearcher, FitScorer),
    (FitScorer, End)
  ]

  /** Where a node sits on the run: its distance from `Start`. */
  function Position(n: GraphNode): nat {
    match n
    case Start => 0
    case JDParser => 1
    case ResumeParser => 2
    case WebResearcher => 3
    case FitScorer => 4
    case End => 5
  }

  /** The node an edge leads to from `n`, if any. */
  function Successor(n: GraphNode): (m: Option<GraphNode>)
    ensures m.None? <==> n == End
    ensures m.Some? ==> (n, m.value) in Edges && Position(m.value) == Position(n) + 1
    ensures forall k :: 0 <= k < |Edges| && Edges[k].0 == n ==> m == Some(Edges[k].1)
  {
    match n
    case Start => Some(JDParser)
    case JDParser => Some(ResumeParser)
    case ResumeParser => Some(WebResearcher)
    case WebResearcher => Some(FitScorer)
    case FitScorer => Some(End)
    case End => None
  }

  /** The nodes visited from `n` on. */
  function Walk(n: GraphNode): (path: seq<GraphNode>)
    ensures |path| == 6 - Position(n)
    ensures path[0] == n && path[|path| - 1] == End
    decreases 5 - Position(n)
  {
    match Successor(n)
    case None => [n]
    case Some(m) => [n] + Walk(m)
  }

  /** The graph is one chain: every node has at most one outgoing and one
      incoming edge, and the run from `Start` visits each node once, in this
      order. */
  lemma PipelineIsLinear()
    ensures Walk(Start) == [Start, JDParser, ResumeParser, WebResearcher, FitScorer, End]
    ensures forall i, j :: 0 <= i < j < |Edges| ==> Edges[i].0 != Edges[j].0 && Edges[i].1 != Edges[j].1
    ensures forall k :: 0 <= k < |Edges| ==> Position(Edges[k].0) == k && Position(Edges[k].1) == k + 1
  {
    assert Walk(FitScorer) == [FitScorer, End];
    assert Walk(WebResearcher) == [WebResearcher, FitScorer, End];
    assert Walk(ResumeParser) == [ResumeParser, WebResearcher, FitScorer, End];
    assert Walk(JDParser) == [JDParser, ResumeParser, WebResearcher, FitScorer, End];
  }

  // ------------------------------------------------------ running a graph

  /** `run_recruiting_assistant`'s initial state. */
  function InitialState(candidateName: string, resumeText: string, jobDescription: string): (s: State)
    ensures s.Keys == {CandidateNameKey, JobDescriptionKey, ResumeTextKey}
    ensures s[CandidateNameKey] == Text(candidateName)
    ensures s[JobDescriptionKey] == Text(jobDescription)
    ensures s[ResumeTextKey] == Text(resumeText)
  {
    map[CandidateNameKey := Text(candidateName),
        JobDescriptionKey := Text(jobDescription),
        ResumeTextKey := Text(resumeText)]
  }

  /** The outcomes of every foreign call a run makes. */
  datatype Outcomes = Outcomes(
    jd: Option<JobDescription>,
    resume: Option<Resume>,
    links: seq<string>,
    web: Option<WebResearch>,
    extract: string -> AgentNodes.Extracted,
    fit: Option<FitAssessment>,
    render: FitAssessment -> string)

  /** The two keys the nodes return that are not fields of the graph's
      `State` schema. A node's returned dictionary is written back key by
      key, and only schema keys are kept. */
  const NonSchemaKeys: set<Key> := {UsernamesKey, FormattedOutputKey}

  /** The graph state after a node returned `s`. */
  function Keep(s: State): (r: State)
    ensures forall k :: k in r <==> k in s && k !in NonSchemaKeys
    ensures UsernamesKey !in r && FormattedOutputKey !in r
  {
    s - NonSchemaKeys
  }

  /** The state the scorer sees: the first three nodes in edge order. */
  function Researched(s: State, o: Outcomes): State
    requires JobDescriptionKey in s && ResumeTextKey in s
  {
    var s1 := Keep(AgentNodes.ParseJdNode(s, o.jd));
    var s2 := Keep(AgentNodes.ParseResumeNode(s1, o.resume, o.links));
    Keep(AgentNodes.WebResearchNode(s2, o.web, o.extract))
  }

  /** The four nodes in edge order; `None` when the scorer raises. */
  function RunGraph(s: State, o: Outcomes): Option<State>
    requires JobDescriptionKey in s && ResumeTextKey in s
  {
    var s4 := AgentNodes.FitScoreNode(Researched(s, o), o.fit, o.render);
    if s4.Some? then Some(Keep(s4.value)) else None
  }

  /** Writing a node's result back adds only the schema part of what the
      node added. */
  lemma KeepAddsOnly(before: State, after: State, added: set<Key>)
    requires before.Keys !! NonSchemaKeys
    requires AddsOnly(before, after, added)
    ensures AddsOnly(before, Keep(after), added - NonSchemaKeys)
  {
  }

  /** Two steps that each add only some keys add only their union. */
  lemma AddsOnlyChain(a: State, b: State, c: State, x: set<Key>, y: set<Key>, xy: set<Key>)
    requires AddsOnly(a, b, x) && AddsOnly(b, c, y)
    requires xy == x + y
    ensures AddsOnly(a, c, xy)
  {
  }

  /** Written back, the job-description node adds only its result. */
  lemma JdStep(s: State, jd: Option<JobDescription>)
    requires s.Keys !! NonSchemaKeys && JobDescriptionKey in s
    ensures AddsOnly(s, Keep(AgentNodes.ParseJdNode(s, jd)), {JdStructuredKey})
  {
    KeepAddsOnly(s, AgentNodes.ParseJdNode(s, jd), {JdStructuredKey});
  }

  /** Written back, the resume node adds the resume, the name and, on
      success, the links; a non-empty incoming name survives. */
  lemma ResumeStep(s: State, parsed: Option<Resume>, links: seq<string>)
    requires s.Keys !! NonSchemaKeys && ResumeTextKey in s
    ensures var r := Keep(AgentNodes.ParseResumeNode(s, parsed, links));
      && AddsOnly(s, r, {ResumeStructuredKey, CandidateNameKey} + (if parsed.Some? then {ExtractedUrlsKey} else {}))
      && (TextOr(s, CandidateNameKey, "") != "" ==> r[CandidateNameKey] == Text(TextOr(s, CandidateNameKey, "")))
  {
    var t := AgentNodes.ParseResumeNode(s, parsed, links);
    var added := {ResumeStructuredKey, CandidateNameKey} + (if parsed.Some? then {ExtractedUrlsKey} else {});
    KeepAddsOnly(s, t, added);
    assert added - NonSchemaKeys == added;
    if parsed.Some? {
      assert t[CandidateNameKey].text == AgentNodes.ParsedName(TextOr(s, CandidateNameKey, ""), parsed.value);
    }
  }

  /** Written back, the web-research node adds only its summary: the
      username map is not a schema key. */
  lemma WebStep(s: State, analysis: Option<WebResearch>, extract: string -> AgentNodes.Extracted)
    requires s.Keys !! NonSchemaKeys && CandidateNameKey in s && ResumeStructuredKey in s
    ensures AddsOnly(s, Keep(AgentNodes.WebResearchNode(s, analysis, extract)), {WebStructuredKey})
  {
    KeepAddsOnly(s, AgentNodes.WebResearchNode(s, analysis, extract), {WebStructuredKey, UsernamesKey});
    assert {WebStructuredKey, UsernamesKey} - NonSchemaKeys == {WebStructuredKey};
  }

  /** The job-description and resume nodes together. */
  lemma ParsedSteps(s: State, o: Outcomes)
    requires s.Keys !! NonSchemaKeys && JobDescriptionKey in s && ResumeTextKey in s
    ensures var s1 := Keep(AgentNodes.ParseJdNode(s, o.jd));
      var s2 := Keep(AgentNodes.ParseResumeNode(s1, o.resume, o.links));
      && AddsOnly(s, s2, {JdStructuredKey, ResumeStructuredKey, CandidateNameKey}
                         + (if o.resume.Some? then {ExtractedUrlsKey} else {}))
      && (TextOr(s, CandidateNameKey, "") != "" ==> s2[CandidateNameKey] == s[CandidateNameKey])
  {
    var s1 := Keep(AgentNodes.ParseJdNode(s, o.jd));
    var urls: set<Key> := if o.resume.Some? then {ExtractedUrlsKey} else {};
    JdStep(s, o.jd);
    ResumeStep(s1, o.resume, o.links);
    AddsOnlyChain(s, s1, Keep(AgentNodes.ParseResumeNode(s1, o.resume, o.links)),
                  {JdStructuredKey}, {ResumeStructuredKey, CandidateNameKey} + urls,
                  {JdStructuredKey, ResumeStructuredKey, CandidateNameKey} + urls);
  }

  /** The first three nodes add the parsed job description, the parsed
      resume, the (possibly corrected) name, the web research and, when the
      resume was parsed, its links; every other entry is left as it was, and
      a non-empty incoming name survives. */
  lemma ResearchedResult(s: State, o: Outcomes)
    requires s.Keys !! NonSchemaKeys && JobDescriptionKey in s && ResumeTextKey in s
    ensures var r := Researched(s, o);
      && AddsOnly(s, r, {JdStructuredKey, ResumeStructuredKey, CandidateNameKey, WebStructuredKey}
                        + (if o.resume.Some? then {ExtractedUrlsKey} else {}))
      && (TextOr(s, CandidateNameKey, "") != "" ==> r[CandidateNameKey] == s[CandidateNameKey])
  {
    var s1 := Keep(AgentNodes.ParseJdNode(s, o.jd));
    var s2 := Keep(AgentNodes.ParseResumeNode(s1, o.resume, o.links));
    var added := {JdStructuredKey, ResumeStructuredKey, CandidateNameKey} + (if o.resume.Some? then {ExtractedUrlsKey} else {});
    ParsedSteps(s, o);
    WebStep(s2, o.web, o.extract);
    AddsOnlyChain(s, s2, Researched(s, o), added, {WebStructuredKey},
                  {JdStructuredKey, ResumeStructuredKey, CandidateNameKey, WebStructuredKey}
                  + (if o.resume.Some? then {ExtractedUrlsKey} else {}));
  }

  /** The scorer, written back, adds only the assessment: the rendered
      report is not a schema key. */
  lemma ScoreStep(s: State, fit: Option<FitAssessment>, render: FitAssessment -> string)
    requires s.Keys !! NonSchemaKeys && JdStructuredKey in s && ResumeStructuredKey in s && WebStructuredKey in s
    ensures var t := AgentNodes.FitScoreNode(s, fit, render);
      t.Some? ==> AddsOnly(s, Keep(t.value), {FitAssessmentKey}) && Keep(t.value)[FitAssessmentKey] == FitValue(fit.value)
  {
    var t := AgentNodes.FitScoreNode(s, fit, render);
    if t.Some? {
      KeepAddsOnly(s, t.value, {FitAssessmentKey, FormattedOutputKey});
      assert {FitAssessmentKey, FormattedOutputKey} - NonSchemaKeys == {FitAssessmentKey};
    }
  }

  /** A run adds the four structured results, the (possibly corrected)
      name and, when the resume was parsed, its links to the initial state,
      or fails exactly when the assessment call does. */
  lemma RunGraphAddsOnly(s: State, o: Outcomes)
    requires s.Keys !! NonSchemaKeys && JobDescriptionKey in s && ResumeTextKey in s
    ensures var r := RunGraph(s, o);
      && (r.Some? <==> o.fit.Some?)
      && (r.Some? ==>
            && AddsOnly(s, r.value, {JdStructuredKey, ResumeStructuredKey, CandidateNameKey, WebStructuredKey,
                                     FitAssessmentKey} + (if o.resume.Some? then {ExtractedUrlsKey} else {}))
            && r.value[FitAssessmentKey] == FitValue(o.fit.value)
            && (TextOr(s, CandidateNameKey, "") != "" ==> r.value[CandidateNameKey] == s[CandidateNameKey]))
  {
    var s3 := Researched(s, o);
    var urls: set<Key> := if o.resume.Some? then {ExtractedUrlsKey} else {};
    var added := {JdStructuredKey, ResumeStructuredKey, CandidateNameKey, WebStructuredKey} + urls;
    ResearchedResult(s, o);
    ScoreStep(s3, o.fit, o.render);
    var t := AgentNodes.FitScoreNode(s3, o.fit, o.render);
    if t.Some? {
      AddsOnlyChain(s, s3, Keep(t.value), added, {FitAssessmentKey},
                    {JdStructuredKey, ResumeStructuredKey, CandidateNameKey, WebStructuredKey, FitAssessmentKey} + urls);
    }
  }

  /** End to end: a run fails exactly when the assessment call does; a
      finished run holds the three inputs and the four structured results,
      plus `extracted_urls` exactly when the resume was parsed. The username
      map and the rendered report are not schema keys and do not survive. */
  lemma RunGraphKeys(name: string, resumeText: string, jobDescription: string, o: Outcomes)
    ensures var r := RunGraph(InitialState(name, resumeText, jobDescription), o);
      && (r.Some? <==> o.fit.Some?)
      && (r.Some? ==>
            && CandidateNameKey in r.value && JobDescriptionKey in r.value && ResumeTextKey in r.value
            && JdStructuredKey in r.value && ResumeStructuredKey in r.value
            && WebStructuredKey in r.value && FitAssessmentKey in r.value
            && (ExtractedUrlsKey in r.value <==> o.resume.Some?)
            && UsernamesKey !in r.value && FormattedOutputKey !in r.value)
  {
    RunGraphAddsOnly(InitialState(name, resumeText, jobDescription), o);
    RunKeys(o.resume.Some?);
  }

  /** A finished run never overwrites the job description or the resume
      text, keeps a non-empty incoming name, and carries the assessment. */
  lemma RunGraphKeepsInputs(name: string, resumeText: string, jobDescription: string, o: Outcomes)
    ensures var r := RunGraph(InitialState(name, resumeText, jobDescription), o);
      r.Some? ==>
        && JobDescriptionKey in r.value && r.value[JobDescriptionKey] == Text(jobDescription)
        && ResumeTextKey in r.value && r.value[ResumeTextKey] == Text(resumeText)
        && FitAssessmentKey in r.value && r.value[FitAssessmentKey] == FitValue(o.fit.value)
        && (name != "" ==> CandidateNameKey in r.value && r.value[CandidateNameKey] == Text(name))
  {
    var s := InitialState(name, resumeText, jobDescription);
    RunGraphAddsOnly(s, o);
    RunKeys(o.resume.Some?);
    assert TextOr(s, CandidateNameKey, "") == name;
  }

  /** Which keys a run adds. */
  lemma RunKeys(parsed: bool)
    ensures var added := {JdStructuredKey, ResumeStructuredKey, CandidateNameKey, WebStructuredKey, FitAssessmentKey}
                         + (if parsed then {ExtractedUrlsKey} else {});
      && UsernamesKey !in added && FormattedOutputKey !in added
      && JobDescriptionKey !in added && ResumeTextKey !in added
      && (ExtractedUrlsKey in added <==> parsed)
      && JdStructuredKey in added && ResumeStructuredKey in added && WebStructuredKey in added
      && FitAssessmentKey in added && CandidateNameKey in added
  {
  }

  // -------------------------------------------------------------- report

  /** The matrix marks exactly as the source spells them: the UTF-8 bytes
      of a check mark and a cross mark read back as Windows-1252, i.e.
      "\u00e2\u0153\u2026" and "\u00e2\u0152". */
  const Yes := "\U{E2}\U{153}\U{2026}"
  const No := "\U{E2}\U{152}"

  function Mark(b: bool): (m: string)
    ensures m == Yes <==> b
    ensures m == No <==> !b
  {
    if b then Yes else No
  }

  /** One matrix row: the skill, then the two marks. */
  function MatrixRow(e: MatrixEntry): string {
    "| " + e.skill + " | " + Mark(e.required) + " | " + Mark(e.candidateHas) + " |"
  }

  function MatrixRows(matrix: seq<MatrixEntry>): (rows: seq<string>)
    ensures |rows| == |matrix|
    ensures forall i :: 0 <= i < |rows| ==> rows[i] == MatrixRow(matrix[i])
  {
    seq(|matrix|, i requires 0 <= i < |matrix| => MatrixRow(matrix[i]))
  }

  const MatrixHeader := "| Skill | Required | Candidate Has |"
  const MatrixRule := "| ----- | -------- | ------------ |"
  const DetailedHeading := "## Detailed Assessment"

  function Heading(fit: FitAssessment): string {
    "# Candidate Assessment: " + fit.fitScore
  }

  function DomainLine(fit: FitAssessment): string {
    "- Domain signal: " + fit.scoreDetails.domainSignal
  }

  /** The score lines. The two numbers arrive already rendered: `percentage`
      as `:.1f` renders the skill-match percentage and `years` as `str`
      renders the experience. */
  function ScoreLines(percentage: string, years: string): seq<string> {
    ["## Score Details", "- Skill match: " + percentage + "%", "- Experience: " + years + " years"]
  }

  function MatrixLines(fit: FitAssessment): seq<string> {
    ["## Skills Comparison Matrix", MatrixHeader, MatrixRule] + MatrixRows(fit.comparisonMatrix)
  }

  /** The `output` list of `format_output`, before joining. */
  function ReportParts(fit: FitAssessment, percentage: string, years: string): seq<string> {
    [Heading(fit) + "\n"] + ScoreLines(percentage, years) + [DomainLine(fit) + "\n"] + MatrixLines(fit)
    + ["\n" + DetailedHeading, fit.reasoning]
  }

  /** `format_output`: the parts joined with newlines. */
  function FormatOutput(fit: FitAssessment, percentage: string, years: string): (out: string)
    ensures StartsWith(out, Heading(fit) + "\n")
    ensures EndsWith(out, "\n" + DetailedHeading + "\n" + fit.reasoning)
  {
    var parts := ReportParts(fit, percentage, years);
    var first := Heading(fit) + "\n";
    var rest := parts[1..];
    var body := parts[..|parts| - 2];
    var last2 := ["\n" + DetailedHeading, fit.reasoning];
    assert parts == [first] + rest;
    assert parts == body + last2;
    JoinCons(first, rest, "\n");
    JoinConcat(body, last2, "\n");
    JoinCons("\n" + DetailedHeading, [fit.reasoning], "\n");
    var out := Join(parts, "\n");
    assert out[..|first|] == first;
    var tail := "\n" + DetailedHeading + "\n" + fit.reasoning;
    assert out[|out| - |tail|..] == tail;
    out
  }

  /** The physical lines of the report: the parts with their embedded
      newlines turned into blank lines. */
  function ReportLines(fit: FitAssessment, percentage: string, years: string): (lines: seq<string>)
    ensures |lines| == 13 + |fit.comparisonMatrix|
    ensures lines[0] == Heading(fit) && lines[1] == ""
    ensures lines[8] == MatrixHeader && lines[9] == MatrixRule
    ensures forall i :: 0 <= i < |fit.comparisonMatrix| ==> lines[10 + i] == MatrixRow(fit.comparisonMatrix[i])
    ensures lines[|lines| - 2] == DetailedHeading && lines[|lines| - 1] == fit.reasoning
  {
    [Heading(fit), ""] + ScoreLines(percentage, years) + [DomainLine(fit), ""] + MatrixLines(fit)
    + ["", DetailedHeading, fit.reasoning]
  }

  lemma JoinCons(a: string, rest: seq<string>, sep: string)
    requires |rest| >= 1
    ensures Join([a] + rest, sep) == a + sep + Join(rest, sep)
  {
    assert ([a] + rest)[1..] == rest;
  }

  /** The report is its physical lines joined with newlines. */
  lemma FormatOutputIsLines(fit: FitAssessment, percentage: string, years: string)
    ensures FormatOutput(fit, percentage, years) == Join(ReportLines(fit, percentage, years), "\n")
  {
    var h := Heading(fit);
    var sc := ScoreLines(percentage, years);
    var d := DomainLine(fit);
    var m := MatrixLines(fit);
    var r := fit.reasoning;
    var top: seq<string> := [];
    var mid := [h, ""] + sc;
    var low := [h, ""] + sc + [d, ""] + m;
    assert h + "\n" + "" == h + "\n" && d + "\n" + "" == d + "\n";
    assert "" + "\n" + DetailedHeading == "\n" + DetailedHeading;
    assert ReportParts(fit, percentage, years) == top + [h + "\n" + ""] + (sc + [d + "\n"] + m + ["\n" + DetailedHeading, r]);
    JoinSplitsPart(top, h, "", sc + [d + "\n"] + m + ["\n" + DetailedHeading, r], "\n");
    assert top + [h, ""] + (sc + [d + "\n"] + m + ["\n" + DetailedHeading, r])
        == mid + [d + "\n" + ""] + (m + ["\n" + DetailedHeading, r]);
    JoinSplitsPart(mid, d, "", m + ["\n" + DetailedHeading, r], "\n");
    assert mid + [d, ""] + (m + ["\n" + DetailedHeading, r]) == low + ["" + "\n" + DetailedHeading] + [r];
    JoinSplitsPart(low, "", DetailedHeading, [r], "\n");
    assert low + ["", DetailedHeading] + [r] == ReportLines(fit, percentage, years);
  }

  predicate NoNewline(s: string) {
    '\n' !in s
  }

  /** No line of `lines` holds a newline. */
  predicate LinesFree(lines: seq<string>) {
    forall i :: 0 <= i < |lines| ==> NoNewline(lines[i])
  }

  lemma LinesFreeConcat(a: seq<string>, b: seq<string>)
    requires LinesFree(a) && LinesFree(b)
    ensures LinesFree(a + b)
  {
    forall i | 0 <= i < |a + b| ensures NoNewline((a + b)[i]) {
      if i >= |a| {
        assert (a + b)[i] == b[i - |a|];
      }
    }
  }

  lemma MatrixRowsFree(matrix: seq<MatrixEntry>)
    requires forall i :: 0 <= i < |matrix| ==> NoNewline(matrix[i].skill)
    ensures LinesFree(MatrixRows(matrix))
  {
    assert NoNewline(Yes) && NoNewline(No);
    forall i | 0 <= i < |matrix| ensures NoNewline(MatrixRow(matrix[i])) {
      var e := matrix[i];
      assert NoNewline(Mark(e.required)) && NoNewline(Mark(e.candidateHas));
    }
  }

  lemma HeadFree(fit: FitAssessment, percentage: string, years: string)
    requires NoNewline(fit.fitScore) && NoNewline(fit.scoreDetails.domainSignal)
    requires NoNewline(percentage) && NoNewline(years)
    ensures LinesFree([Heading(fit), ""] + ScoreLines(percentage, years) + [DomainLine(fit), ""])
  {
    assert NoNewline(Heading(fit)) && NoNewline(DomainLine(fit));
    assert LinesFree(ScoreLines(percentage, years));
  }

  lemma TitlesFree()
    ensures LinesFree(["## Skills Comparison Matrix", MatrixHeader, MatrixRule])
  {
  }

  /** No physical line of the report holds a newline, provided no field of
      the assessment does. */
  lemma ReportLinesHaveNoNewline(fit: FitAssessment, percentage: string, years: string)
    requires NoNewline(fit.fitScore) && NoNewline(fit.scoreDetails.domainSignal) && NoNewline(fit.reasoning)
    requires NoNewline(percentage) && NoNewline(years)
    requires forall i :: 0 <= i < |fit.comparisonMatrix| ==> NoNewline(fit.comparisonMatrix[i].skill)
    ensures LinesFree(ReportLines(fit, percentage, years))
  {
    var head := [Heading(fit), ""] + ScoreLines(percentage, years) + [DomainLine(fit), ""];
    var titles := ["## Skills Comparison Matrix", MatrixHeader, MatrixRule];
    var tail := ["", DetailedHeading, fit.reasoning];
    HeadFree(fit, percentage, years);
    TitlesFree();
    assert LinesFree(tail);
    MatrixRowsFree(fit.comparisonMatrix);
    LinesFreeConcat(titles, MatrixRows(fit.comparisonMatrix));
    LinesFreeConcat(head, MatrixLines(fit));
    LinesFreeConcat(head + MatrixLines(fit), tail);
    assert ReportLines(fit, percentage, years) == head + MatrixLines(fit) + tail;
  }

  /** Read back line by line, the report gives exactly its physical lines,
      so matrix row `i` is line `10 + i` and the reasoning is the last line,
      provided no field of the assessment spans several lines. */
  lemma ReportSplitsIntoLines(fit: FitAssessment, percentage: string, years: string)
    requires NoNewline(fit.fitScore) && NoNewline(fit.scoreDetails.domainSignal) && NoNewline(fit.reasoning)
    requires NoNewline(percentage) && NoNewline(years)
    requires forall i :: 0 <= i < |fit.comparisonMatrix| ==> NoNewline(fit.comparisonMatrix[i].skill)
    ensures Split(FormatOutput(fit, percentage, years), {'\n'}) == ReportLines(fit, percentage, years)
  {
    FormatOutputIsLines(fit, percentage, years);
    ReportLinesHaveNoNewline(fit, percentage, years);
    SplitJoin(ReportLines(fit, percentage, years), '\n');
  }

  // ------------------------------------------------- extractor dispatch

  /** The last position of `c` in `s`, or -1. */
  function LastIndex(s: string, c: char): (k: int)
    ensures -1 <= k < |s|
    ensures k >= 0 ==> s[k] == c
    ensures forall j :: k < j < |s| ==> s[j] != c
    decreases |s|
  {
    if |s| == 0 then -1
    else if s[|s| - 1] == c then |s| - 1
    else LastIndex(s[..|s| - 1], c)
  }

  /** `os.path.splitext(path)[1]` on POSIX paths: from the last dot of the
      last path component, unless every character before that dot in the
      component is itself a dot. */
  function Extension(path: string): (ext: string)
    ensures ext == "" || (ext[0] == '.' && EndsWith(path, ext) && '.' !in ext[1..] && '/' !in ext)
  {
    var dot := LastIndex(path, '.');
    var slash := LastIndex(path, '/');
    if dot > slash && exists i | slash + 1 <= i < dot :: path[i] != '.' then
      assert path[|path| - |path[dot..]|..] == path[dot..];
      assert forall j :: 0 <= j < |path[dot..]| ==> path[dot..][j] == path[dot + j];
      path[dot..]
    else ""
  }

  /** A file named `base.e`, with `base` ending in an ordinary character and
      `e` free of dots and slashes, has extension `.e`. */
  lemma ExtensionOfName(base: string, e: string)
    requires |base| > 0 && base[|base| - 1] != '.' && base[|base| - 1] != '/'
    requires '.' !in e && '/' !in e
    ensures Extension(base + "." + e) == "." + e
  {
    var path := base + "." + e;
    assert path[|base|] == '.';
    assert forall j :: |base| < j < |path| ==> path[j] == e[j - |base| - 1];
    assert LastIndex(path, '.') == |base|;
    assert path[|base| - 1] == base[|base| - 1];
    assert path[|base|..] == "." + e;
  }

  datatype Extractor = PdfExtractor | DocxExtractor | TxtReader | Unsupported

  /** The branch `extract_text_from_file` takes, by lower-cased extension. */
  function ExtractorFor(path: string): (x: Extractor)
    ensures x == PdfExtractor <==> Lower(Extension(path)) == ".pdf"
    ensures x == DocxExtractor <==> Lower(Extension(path)) == ".docx"
    ensures x == TxtReader <==> Lower(Extension(path)) == ".txt"
  {
    var ext := Lower(Extension(path));
    if ext == ".pdf" then PdfExtractor
    else if ext == ".docx" then DocxExtractor
    else if ext == ".txt" then TxtReader
    else Unsupported
  }

  /** The three readers, each given the path; the text reader's own errors
      are not caught in the source and are not modelled. */
  datatype Readers = Readers(pdf: string -> string, docx: string -> string, txt: string -> string)

  /** `extract_text_from_file` */
  function ExtractTextFromFile(path: string, readers: Readers): (text: string)
    ensures ExtractorFor(path) == Unsupported ==> text == ""
    ensures ExtractorFor(path) == PdfExtractor ==> text == readers.pdf(path)
    ensures ExtractorFor(path) == DocxExtractor ==> text == readers.docx(path)
    ensures ExtractorFor(path) == TxtReader ==> text == readers.txt(path)
  {
    match ExtractorFor(path)
    case PdfExtractor => readers.pdf(path)
    case DocxExtractor => readers.docx(path)
    case TxtReader => readers.txt(path)
    case Unsupported => ""
  }

  /** The case of the extension does not matter: `CV.PDF` goes to the PDF
      extractor like `cv.pdf`. */
  lemma UpperCasePdfDispatches(base: string)
    requires |base| > 0 && base[|base| - 1] != '.' && base[|base| - 1] != '/'
    ensures ExtractorFor(base + ".PDF") == PdfExtractor
    ensures ExtractorFor(base + ".pdf") == PdfExtractor
  {
    assert base + "." + "PDF" == base + ".PDF";
    assert base + "." + "pdf" == base + ".pdf";
    ExtensionOfName(base, "PDF");
    ExtensionOfName(base, "pdf");
    LowerPdf();
  }

  lemma LowerPdf()
    ensures Lower(".PDF") == ".pdf" && Lower(".pdf") == ".pdf"
  {
    var u := Lower(".PDF");
    assert u[0] == '.' && u[1] == 'p' && u[2] == 'd' && u[3] == 'f';
    var l := Lower(".pdf");
    assert l[0] == '.' && l[1] == 'p' && l[2] == 'd' && l[3] == 'f';
  }

  // ---------------------------------------------------------- documents

  /** Each text followed by a newline, concatenated: how both the PDF and
      the DOCX extractor accumulate pages and paragraphs. */
  function Terminated(texts: seq<string>): (r: string)
    ensures |r| >= |texts|
    decreases |texts|
  {
    if |texts| == 0 then "" else texts[0] + "\n" + Terminated(texts[1..])
  }

  /** Terminated texts are the texts plus one empty piece, joined. */
  lemma {:induction false} TerminatedIsJoin(texts: seq<string>)
    ensures Terminated(texts) == Join(texts + [""], "\n")
    decreases |texts|
  {
    if |texts| > 0 {
      TerminatedIsJoin(texts[1..]);
      assert texts + [""] == [texts[0]] + (texts[1..] + [""]);
      JoinCons(texts[0], texts[1..] + [""], "\n");
    }
  }

  /** Read back line by line, terminated single-line texts give the texts
      followed by one empty line. */
  lemma TerminatedSplits(texts: seq<string>)
    requires forall i :: 0 <= i < |texts| ==> NoNewline(texts[i])
    ensures Split(Terminated(texts), {'\n'}) == texts + [""]
  {
    TerminatedIsJoin(texts);
    SplitJoin(texts + [""], '\n');
  }

  /** A PDF annotation: its `/Subtype`, and the entries of its `/A` action
      dictionary when it has one. */
  datatype Annotation = Annotation(subtype: Option<string>, action: Option<map<string, string>>)

  datatype PdfPage = PdfPage(text: string, annotations: Option<seq<Annotation>>)

  /** The URI of a link annotation with a URI action. */
  function LinkTarget(a: Annotation): (u: Option<string>)
    ensures u.Some? <==> a.subtype == Some("/Link") && a.action.Some? && "/URI" in a.action.value
  {
    if a.subtype == Some("/Link") && a.action.Some? && "/URI" in a.action.value
    then Some(a.action.value["/URI"]) else None
  }

  function LinkTargets(annotations: seq<Annotation>): (links: seq<string>)
    ensures |links| <= |annotations|
    decreases |annotations|
  {
    if |annotations| == 0 then []
    else
      var l := LinkTarget(annotations[0]);
      (if l.Some? then [l.value] else []) + LinkTargets(annotations[1..])
  }

  /** The links of every page, in page order. */
  function PdfLinks(pages: seq<PdfPage>): seq<string>
    decreases |pages|
  {
    if |pages| == 0 then []
    else LinkTargets(pages[0].annotations.GetOr([])) + PdfLinks(pages[1..])
  }

  function PageTexts(pages: seq<PdfPage>): (texts: seq<string>)
    ensures |texts| == |pages|
    ensures forall i :: 0 <= i < |texts| ==> texts[i] == pages[i].text
  {
    seq(|pages|, i requires 0 <= i < |pages| => pages[i].text)
  }

  const LinksMarker := "\n\nLinks:\n"

  /** `extract_text_from_pdf`: the pages, or `None` when reading the file
      raises; any error gives "". */
  function PdfText(pages: Option<seq<PdfPage>>): (text: string)
    ensures pages.None? ==> text == ""
    ensures pages.Some? ==>
      var body := Terminated(PageTexts(pages.value));
      && StartsWith(text, body + LinksMarker)
      && text[|body + LinksMarker|..] == Join(PdfLinks(pages.value), "\n")
  {
    match pages
    case None => ""
    case Some(ps) =>
      var body := Terminated(PageTexts(ps));
      var text := body + LinksMarker + Join(PdfLinks(ps), "\n");
      assert text[..|body + LinksMarker|] == body + LinksMarker;
      text
  }

  /** The links section reads back as the links, one per line, when there is
      at least one and none spans lines. */
  lemma PdfLinksRoundTrip(pages: seq<PdfPage>)
    requires |PdfLinks(pages)| >= 1
    requires forall i :: 0 <= i < |PdfLinks(pages)| ==> NoNewline(PdfLinks(pages)[i])
    ensures var text := PdfText(Some(pages));
            var start := |Terminated(PageTexts(pages)) + LinksMarker|;
            Split(text[start..], {'\n'}) == PdfLinks(pages)
  {
    SplitJoin(PdfLinks(pages), '\n');
  }

  /** `extract_text_from_docx`: each paragraph followed by a newline, or ""
      when the document cannot be read. */
  function DocxText(paragraphs: Option<seq<string>>): (text: string)
    ensures paragraphs.None? ==> text == ""
    ensures paragraphs.Some? ==> text == Join(paragraphs.value + [""], "\n")
  {
    match paragraphs
    case None => ""
    case Some(ps) =>
      TerminatedIsJoin(ps);
      Terminated(ps)
  }

  /** Read back line by line, a document of single-line paragraphs gives
      its paragraphs followed by one empty line. */
  lemma DocxParagraphsRoundTrip(paragraphs: seq<string>)
    requires forall i :: 0 <= i < |paragraphs| ==> NoNewline(paragraphs[i])
    ensures Split(DocxText(Some(paragraphs)), {'\n'}) == paragraphs + [""]
  {
    TerminatedSplits(paragraphs);
  }
}

=== FILE: agent_history.dfy ===
/** Pure helpers of the run-history page: the avatar initials, the match
    score read from a run, the badge and progress-bar colours, the fit label
    shown when the assessment has none, and the list of expanded runs. */
module AgentHistory {
  import opened Wrappers
  import opened Text
  import opened AgentSlice

  /** `run.input?.candidate_name || "User"` */
  function DisplayName(run: AgentRun): (name: string)
    ensures name != ""
    ensures (run.input.Some? && run.input.value.candidateName.Some? && run.input.value.candidateName.value != "")
              ==> name == run.input.value.candidateName.value
  {
    if run.input.Some? && run.input.value.candidateName.Some? && run.input.value.candidateName.value != ""
    then run.input.value.candidateName.value
    else "User"
  }

  /** The first character of each piece, skipping empty pieces (JavaScript's
      `join` renders the `undefined` of `""[0]` as nothing). */
  function Heads(parts: seq<string>): string
    decreases |parts|
  {
    if |parts| == 0 then ""
    else (if parts[0] == "" then "" else [parts[0][0]]) + Heads(parts[1..])
  }

  /** `getInitials`: split on single spaces, take each piece's first
      character, join, upper-case. */
  function Initials(run: AgentRun): (r: string)
    ensures forall i :: 0 <= i < |r| ==> !IsLowerLetter(r[i])
  {
    Upper(Heads(Split(DisplayName(run), {' '})))
  }

  /** Independent description of the initials: the characters of `s` that
      start a word, i.e. that are not a space and come first or right after
      a space. `afterSpace` says whether the position before `s` counts as a
      word boundary. */
  function WordStarts(s: string, afterSpace: bool): string
    decreases |s|
  {
    if |s| == 0 then ""
    else (if afterSpace && s[0] != ' ' then [s[0]] else "") + WordStarts(s[1..], s[0] == ' ')
  }

  lemma {:induction false} HeadsOfSplit(s: string)
    ensures Heads(Split(s, {' '})) == WordStarts(s, true)
    ensures Heads(Split(s, {' '})[1..]) == WordStarts(s, false)
    decreases |s|
  {
    if |s| > 0 {
      HeadsOfSplit(s[1..]);
      var rest := Split(s[1..], {' '});
      if s[0] == ' ' {
        assert Split(s, {' '}) == [""] + rest;
        assert ([""] + rest)[1..] == rest;
      } else {
        var parts := [[s[0]] + rest[0]] + rest[1..];
        assert Split(s, {' '}) == parts;
        assert parts[1..] == rest[1..];
      }
    }
  }

  /** The initials are the upper-cased first letters of the words of the
      display name, in order. */
  lemma InitialsAreWordStarts(run: AgentRun)
    ensures Initials(run) == Upper(WordStarts(DisplayName(run), true))
  {
    HeadsOfSplit(DisplayName(run));
  }

  /** `getMatchScore`: the skill-match percentage, or 0 when any link of
      `output.fit_assessment.score_details.skill_match_percentage` is missing. */
  function MatchScore(run: AgentRun): (score: real)
    ensures run.output.None? ==> score == 0.0
    ensures run.output.Some? && run.output.value.fitAssessment.None? ==> score == 0.0
    ensures (run.output.Some? && run.output.value.fitAssessment.Some?
              && run.output.value.fitAssessment.value.scoreDetails.None?) ==> score == 0.0
    ensures (run.output.Some? && run.output.value.fitAssessment.Some?
              && run.output.value.fitAssessment.value.scoreDetails.Some?)
              ==> score == run.output.value.fitAssessment.value.scoreDetails.value.skillMatchPercentage.GetOr(0.0)
  {
    match run.output
    case None => 0.0
    case Some(out) =>
      match out.fitAssessment
      case None => 0.0
      case Some(fit) =>
        match fit.scoreDetails
        case None => 0.0
        case Some(details) => details.skillMatchPercentage.GetOr(0.0)
  }

  /** The three colours the page uses for scores, best first. */
  datatype Colour = Green | Amber | Red

  /** How good a colour is: red < amber < green. */
  function Rank(c: Colour): nat {
    match c
    case Red => 0
    case Amber => 1
    case Green => 2
  }

  /** The Tailwind text class of a badge colour. */
  function TextClass(c: Colour): string {
    match c
    case Green => "text-green-500"
    case Amber => "text-amber-500"
    case Red => "text-red-500"
  }

  /** `getScoreColor`: green from 80, amber from 50, red below. */
  function ScoreColor(score: real): (c: Colour)
    ensures c == Green <==> score >= 80.0
    ensures c == Amber <==> 50.0 <= score < 80.0
    ensures c == Red <==> score < 50.0
  {
    if score >= 80.0 then Green else if score >= 50.0 then Amber else Red
  }

  /** A higher score never gets a worse badge colour. */
  lemma ScoreColorMonotone(a: real, b: real)
    requires a <= b
    ensures Rank(ScoreColor(a)) <= Rank(ScoreColor(b))
  {
  }

  /** The progress bar's colour: green from 80, amber from 60, red below. */
  function ProgressColor(score: real): (c: Colour)
    ensures c == Green <==> score >= 80.0
    ensures c == Amber <==> 60.0 <= score < 80.0
    ensures c == Red <==> score < 60.0
  {
    if score >= 80.0 then Green else if score >= 60.0 then Amber else Red
  }

  /** The bar and the badge disagree exactly on scores in [50, 60), where
      the badge is amber and the bar red. */
  lemma ProgressDiffersFromBadge(score: real)
    ensures ProgressColor(score) != ScoreColor(score) <==> 50.0 <= score < 60.0
    ensures 50.0 <= score < 60.0 ==> ScoreColor(score) == Amber && ProgressColor(score) == Red
  {
  }

  /** The fit description: the assessment's own `fit_score` when present and
      non-empty, otherwise a label derived from the match score. */
  function FitLabel(fit: FitView, score: real): (text: string)
    ensures fit.fitScore.Some? && fit.fitScore.value != "" ==> text == fit.fitScore.value
    ensures fit.fitScore.None? || fit.fitScore.value == "" ==>
      text == (if score >= 80.0 then "Strong Fit" else if score >= 60.0 then "Moderate Fit" else "Low Fit")
  {
    if fit.fitScore.Some? && fit.fitScore.value != "" then fit.fitScore.value
    else if score >= 80.0 then "Strong Fit"
    else if score >= 60.0 then "Moderate Fit"
    else "Low Fit"
  }

  /** The fallback label agrees with the progress-bar colour: "Strong Fit"
      exactly when green, "Moderate Fit" exactly when amber. */
  lemma FallbackLabelFollowsProgressColor(fit: FitView, score: real)
    requires fit.fitScore.None? || fit.fitScore.value == ""
    ensures FitLabel(fit, score) == "Strong Fit" <==> ProgressColor(score) == Green
    ensures FitLabel(fit, score) == "Moderate Fit" <==> ProgressColor(score) == Amber
    ensures FitLabel(fit, score) == "Low Fit" <==> ProgressColor(score) == Red
  {
  }

  /** The effect on the expanded list of an `id` query parameter: a present,
      non-empty id is appended after the entries already expanded. */
  function ExpandFromQuery(expanded: seq<string>, runId: Option<string>): (r: seq<string>)
    ensures |expanded| <= |r| && r[..|expanded|] == expanded
    ensures runId.Some? && runId.value != "" ==> |r| == |expanded| + 1 && r[|expanded|] == runId.value
    ensures runId.None? || runId.value == "" ==> r == expanded
  {
    if runId.Some? && runId.value != "" then expanded + [runId.value] else expanded
  }
}

=== FILE: agent_nodes.dfy ===
/** The four nodes of the backend recruiting graph, with every language-model,
    search and page-fetch call replaced by its outcome, given as an input
    (`None` when the call raised). What remains is the glue the nodes
    implement themselves: which state keys each node writes, the fallback
    records used when a call fails, the candidate-name rule, the per-platform
    username map, the accumulation, filtering and ordering of research
    results, the experience lines handed to the scorer, and the GitHub-project
    check. */
module AgentNodes {
  import opened Wrappers
  import opened Text
  import opened RecruiterTypes
  import Sorting

  // ------------------------------------------------------ parse_jd_node

  /** The job description used when parsing fails. */
  const FallbackJd := JobDescription("Unknown Position", None, [], [], None, [])

  /** `parse_jd_node`: the parsed job description, or the fallback, under
      `jd_structured`. */
  function ParseJdNode(state: State, parsed: Option<JobDescription>): (r: State)
    requires JobDescriptionKey in state
    ensures AddsOnly(state, r, {JdStructuredKey})
    ensures r[JdStructuredKey].JdValue?
    ensures parsed.Some? ==> r[JdStructuredKey].jd == parsed.value
    ensures parsed.None? ==>
      var jd := r[JdStructuredKey].jd;
      && jd.title == "Unknown Position" && jd.location.None? && jd.preferredQualifications.None?
      && jd.responsibilities == [] && jd.requiredQualifications == [] && jd.topSkills == []
  {
    state[JdStructuredKey := JdValue(parsed.GetOr(FallbackJd))]
  }

  // -------------------------------------------------- parse_resume_node

  /** The resume used when parsing fails: only the name is known. */
  function FallbackResume(name: string): (r: Resume)
    ensures r.personal.name == name
    ensures r.education == [] && r.experience == [] && r.skills == []
    ensures r.certifications.None? && r.projects.None?
  {
    Resume(Personal(name, None, None, None), [], [], [], None, None)
  }

  /** The candidate name after a successful parse: the incoming one unless
      it is empty and the resume names someone. */
  function ParsedName(incoming: string, resume: Resume): (name: string)
    ensures incoming != "" ==> name == incoming
    ensures incoming == "" ==> name == resume.personal.name
  {
    if incoming == "" && resume.personal.name != "" then resume.personal.name else incoming
  }

  /** `parse_resume_node`: `links` is what link extraction found in the
      resume text. On success the links are stored under `extracted_urls`;
      on failure the fallback resume carries the incoming name, or
      "Unknown". */
  function ParseResumeNode(state: State, parsed: Option<Resume>, links: seq<string>): (r: State)
    requires ResumeTextKey in state
    ensures parsed.Some? ==> AddsOnly(state, r, {ResumeStructuredKey, CandidateNameKey, ExtractedUrlsKey})
    ensures parsed.Some? ==> r[ExtractedUrlsKey] == UrlList(links)
    ensures parsed.None? ==> AddsOnly(state, r, {ResumeStructuredKey, CandidateNameKey})
    ensures r[ResumeStructuredKey].ResumeValue? && r[CandidateNameKey].Text?
    ensures parsed.Some? ==> r[ResumeStructuredKey].resume == parsed.value
    ensures parsed.Some? ==> r[CandidateNameKey].text == ParsedName(TextOr(state, CandidateNameKey, ""), parsed.value)
    ensures parsed.None? ==> r[CandidateNameKey].text == TextOr(state, CandidateNameKey, "")
    ensures parsed.None? ==>
      var incoming := TextOr(state, CandidateNameKey, "");
      r[ResumeStructuredKey].resume == FallbackResume(if incoming != "" then incoming else "Unknown")
  {
    var incoming := TextOr(state, CandidateNameKey, "");
    match parsed
    case Some(resume) =>
      state[ExtractedUrlsKey := UrlList(links)]
           [ResumeStructuredKey := ResumeValue(resume)]
           [CandidateNameKey := Text(ParsedName(incoming, resume))]
    case None =>
      state[ResumeStructuredKey := ResumeValue(FallbackResume(if incoming != "" then incoming else "Unknown"))]
           [CandidateNameKey := Text(incoming)]
  }

  /** The name that leaves the resume node is never empty unless both the
      incoming name and the parsed one are. */
  lemma ResumeNodeNameNonEmpty(state: State, parsed: Option<Resume>, links: seq<string>)
    requires ResumeTextKey in state
    requires TextOr(state, CandidateNameKey, "") != "" || (parsed.Some? && parsed.value.personal.name != "")
    ensures ParseResumeNode(state, parsed, links)[CandidateNameKey].text != ""
  {
  }

  // -------------------------------------------------- usernames

  /** What the username extractor returns for a URL: a username, possibly
      missing or empty, and a platform name. */
  datatype Extracted = Extracted(username: Option<string>, platform: string)

  predicate HasUsername(e: Extracted) {
    e.username.Some? && e.username.value != ""
  }

  /** The `usernames` dictionary built from the resume URLs in order: each
      URL with a username sets its platform's entry. */
  function Usernames(urls: seq<string>, extract: string -> Extracted): (m: map<string, string>)
    ensures forall p :: p in m ==> m[p] != ""
    decreases |urls|
  {
    if |urls| == 0 then map[]
    else
      var m := Usernames(urls[..|urls| - 1], extract);
      var e := extract(urls[|urls| - 1]);
      if HasUsername(e) then m[e.platform := e.username.value] else m
  }

  /** Reference reading: the username of the last URL, scanning from the
      end, that has one for `platform`. */
  function LastUsername(urls: seq<string>, extract: string -> Extracted, platform: string): (u: Option<string>)
    ensures u.Some? ==> exists i :: 0 <= i < |urls| && extract(urls[i]) == Extracted(u, platform) && u.value != ""
    decreases |urls|
  {
    if |urls| == 0 then None
    else
      var e := extract(urls[|urls| - 1]);
      if HasUsername(e) && e.platform == platform then
        assert extract(urls[|urls| - 1]) == Extracted(e.username, platform);
        e.username
      else
        var u := LastUsername(urls[..|urls| - 1], extract, platform);
        if u.Some? then
          var i :| 0 <= i < |urls[..|urls| - 1]| && extract(urls[..|urls| - 1][i]) == Extracted(u, platform) && u.value != "";
          assert extract(urls[i]) == Extracted(u, platform);
          u
        else u
  }

  /** One entry per platform, and it is the last URL's for that platform:
      later URLs overwrite earlier ones. */
  lemma {:induction false} UsernamesKeepLast(urls: seq<string>, extract: string -> Extracted, platform: string)
    ensures platform in Usernames(urls, extract) <==> LastUsername(urls, extract, platform).Some?
    ensures platform in Usernames(urls, extract) ==>
      Usernames(urls, extract)[platform] == LastUsername(urls, extract, platform).value
    decreases |urls|
  {
    if |urls| > 0 {
      UsernamesKeepLast(urls[..|urls| - 1], extract, platform);
    }
  }

  // ------------------------------------------------ research results

  datatype Source = DirectUrl | SearchHit

  /** One entry of the node's `search_results`. */
  datatype ResearchResult = ResearchResult(title: string, url: string, content: string, relevance: int, source: Source)

  /** A fetched page: `get_url_content`'s title and text. */
  datatype Page = Page(title: string, content: string)

  const MinRelevance := 3
  const DirectRelevance := 10

  /** The test "the page at this URL could be fetched". */
  function Fetched(fetch: string -> Option<Page>): string -> bool {
    u => fetch(u).Some?
  }

  /** The entry stored for a fetched resume URL. */
  function DirectEntry(url: string, page: Page): ResearchResult {
    ResearchResult(page.title, url, Take(page.content, 300), DirectRelevance, DirectUrl)
  }

  /** Step 1: one entry per resume URL whose page could be fetched, in the
      order of the URLs, with the page's title, its content cut to 300
      characters and relevance 10. */
  function DirectResults(urls: seq<string>, fetch: string -> Option<Page>): (r: seq<ResearchResult>)
    ensures |r| == |Sorting.Filter(urls, Fetched(fetch))|
    ensures forall i :: 0 <= i < |r| ==>
      var u := Sorting.Filter(urls, Fetched(fetch))[i];
      fetch(u).Some? && r[i] == DirectEntry(u, fetch(u).value)
    decreases |urls|
  {
    if |urls| == 0 then []
    else
      var rest := DirectResults(urls[1..], fetch);
      match fetch(urls[0])
      case None => rest
      case Some(page) => [DirectEntry(urls[0], page)] + rest
  }

  /** A resume URL has a direct entry exactly when its page could be fetched. */
  lemma {:induction false} DirectResultsCoverFetched(urls: seq<string>, fetch: string -> Option<Page>, u: string)
    requires u in urls
    ensures fetch(u).Some? <==> exists i :: 0 <= i < |DirectResults(urls, fetch)| && DirectResults(urls, fetch)[i].url == u
  {
    var r := DirectResults(urls, fetch);
    var f := Sorting.Filter(urls, Fetched(fetch));
    Sorting.FilterCounts(urls, Fetched(fetch), u);
    assert u in multiset(urls);
    if fetch(u).Some? {
      assert Fetched(fetch)(u);
      assert u in multiset(f);
      var i :| 0 <= i < |f| && f[i] == u;
      assert r[i] == DirectEntry(u, fetch(u).value);
      assert DirectResults(urls, fetch)[i].url == u;
    } else {
      forall i | 0 <= i < |r| ensures r[i].url != u {
        assert fetch(f[i]).Some?;
      }
    }
  }

  /** Whether some collected result already has the hit's URL; a hit without
      a URL never matches. */
  predicate Seen(acc: seq<ResearchResult>, url: Option<string>) {
    url.Some? && exists i | 0 <= i < |acc| :: acc[i].url == url.value
  }

  /** No non-empty URL occurs twice. */
  ghost predicate DistinctUrls(s: seq<ResearchResult>) {
    forall i, j :: 0 <= i < j < |s| && s[j].url != "" ==> s[i].url != s[j].url
  }

  /** The entry stored for an accepted search hit. */
  function HitEntry(hit: Hit, score: int): ResearchResult {
    ResearchResult(hit.title.GetOr(""), hit.url.GetOr(""), Take(hit.content.GetOr(""), 300), score, SearchHit)
  }

  /** The handling of one search hit: skipped when its URL is already
      present, otherwise scored and appended when the score is at least 3.
      `relevance` is `None` when the scoring call raised, which abandons the
      rest of the query (`None`). */
  function AddHit(acc: seq<ResearchResult>, hit: Hit, relevance: Hit -> Option<int>): (r: Option<seq<ResearchResult>>)
    ensures r.None? <==> !Seen(acc, hit.url) && relevance(hit).None?
    ensures Seen(acc, hit.url) ==> r == Some(acc)
    ensures !Seen(acc, hit.url) && relevance(hit).Some? && relevance(hit).value < MinRelevance ==> r == Some(acc)
    ensures !Seen(acc, hit.url) && relevance(hit).Some? && relevance(hit).value >= MinRelevance ==>
      && r.Some? && |r.value| == |acc| + 1 && r.value[..|acc|] == acc
      && r.value[|acc|] == HitEntry(hit, relevance(hit).value)
  {
    if Seen(acc, hit.url) then Some(acc)
    else
      match relevance(hit)
      case None => None
      case Some(score) => if score >= MinRelevance then Some(acc + [HitEntry(hit, score)]) else Some(acc)
  }

  /** Adding a hit never introduces a repeated URL. */
  lemma AddHitKeepsUrlsDistinct(acc: seq<ResearchResult>, hit: Hit, relevance: Hit -> Option<int>)
    requires DistinctUrls(acc)
    ensures AddHit(acc, hit, relevance).Some? ==> DistinctUrls(AddHit(acc, hit, relevance).value)
  {
    var r := AddHit(acc, hit, relevance);
    if r.Some? && r.value != acc {
      forall i | 0 <= i < |acc| && r.value[|acc|].url != ""
        ensures acc[i].url != r.value[|acc|].url
      {
        assert hit.url.Some?;
      }
    }
  }

  /** The inner loop over one query's hits. A scoring failure ends the query
      but keeps what it already appended, since the enclosing `try` covers
      the whole loop. */
  function AddHits(acc: seq<ResearchResult>, hits: seq<Hit>, relevance: Hit -> Option<int>): (r: seq<ResearchResult>)
    ensures |acc| <= |r| <= |acc| + |hits| && r[..|acc|] == acc
    ensures forall i :: |acc| <= i < |r| ==> r[i].relevance >= MinRelevance && r[i].source == SearchHit
    decreases |hits|
  {
    if |hits| == 0 then acc
    else
      match AddHit(acc, hits[0], relevance)
      case None => acc
      case Some(next) =>
        var r := AddHits(next, hits[1..], relevance);
        assert r[..|acc|] == r[..|next|][..|acc|];
        r
  }

  /** No hit of `hits` makes the scoring call raise on its way through. */
  predicate ScoresAll(acc: seq<ResearchResult>, hits: seq<Hit>, relevance: Hit -> Option<int>)
    decreases |hits|
  {
    |hits| == 0 ||
      (AddHit(acc, hits[0], relevance).Some? && ScoresAll(AddHit(acc, hits[0], relevance).value, hits[1..], relevance))
  }

  /** When scoring the `k`-th hit raises, the query contributes exactly what
      the hits before it contributed; the hits after it are never looked at. */
  lemma {:induction false} FailureKeepsPrefix(acc: seq<ResearchResult>, hits: seq<Hit>,
                                              relevance: Hit -> Option<int>, k: nat)
    requires k < |hits| && ScoresAll(acc, hits[..k], relevance)
    requires AddHit(AddHits(acc, hits[..k], relevance), hits[k], relevance).None?
    ensures AddHits(acc, hits, relevance) == AddHits(acc, hits[..k], relevance)
    decreases k
  {
    if k == 0 {
      assert hits[..0] == [];
    } else {
      var next := AddHit(acc, hits[0], relevance).value;
      assert hits[..k][1..] == hits[1..][..k - 1];
      FailureKeepsPrefix(next, hits[1..], relevance, k - 1);
    }
  }

  lemma {:induction false} AddHitsKeepsUrlsDistinct(acc: seq<ResearchResult>, hits: seq<Hit>, relevance: Hit -> Option<int>)
    requires DistinctUrls(acc)
    ensures DistinctUrls(AddHits(acc, hits, relevance))
    decreases |hits|
  {
    if |hits| > 0 {
      AddHitKeepsUrlsDistinct(acc, hits[0], relevance);
      var next := AddHit(acc, hits[0], relevance);
      if next.Some? {
        AddHitsKeepsUrlsDistinct(next.value, hits[1..], relevance);
      }
    }
  }
  /** The outer loop over the queries. Each answer is the query's hits, or
      `None` when the search itself raised (the query then adds nothing). */
  function AddAnswers(acc: seq<ResearchResult>, answers: seq<Option<seq<Hit>>>, relevance: Hit -> Option<int>)
    : (r: seq<ResearchResult>)
    ensures |acc| <= |r| && r[..|acc|] == acc
    ensures forall i :: |acc| <= i < |r| ==> r[i].relevance >= MinRelevance && r[i].source == SearchHit
    decreases |answers|
  {
    if |answers| == 0 then acc
    else
      var next := if answers[0].Some? then AddHits(acc, answers[0].value, relevance) else acc;
      var r := AddAnswers(next, answers[1..], relevance);
      assert r[..|acc|] == r[..|next|][..|acc|];
      r
  }

  lemma {:induction false} AddAnswersKeepsUrlsDistinct(acc: seq<ResearchResult>, answers: seq<Option<seq<Hit>>>,
                                                         relevance: Hit -> Option<int>)
    requires DistinctUrls(acc)
    ensures DistinctUrls(AddAnswers(acc, answers, relevance))
    decreases |answers|
  {
    if |answers| > 0 {
      if answers[0].Some? {
        AddHitsKeepsUrlsDistinct(acc, answers[0].value, relevance);
      }
      var next := if answers[0].Some? then AddHits(acc, answers[0].value, relevance) else acc;
      AddAnswersKeepsUrlsDistinct(next, answers[1..], relevance);
    }
  }

  function RelevanceKey(r: ResearchResult): real {
    r.relevance as real
  }

  const RefetchCount := 5

  /** Step 4: among the first five results, each search result whose page can
      be fetched gets the page's full content. */
  function Refetch(s: seq<ResearchResult>, fetch: string -> Option<Page>): (r: seq<ResearchResult>)
    ensures |r| == |s|
    ensures forall i :: 0 <= i < |r| ==> r[i].(content := s[i].content) == s[i]
    ensures forall i :: 0 <= i < |r| && (i >= RefetchCount || s[i].source == DirectUrl) ==> r[i] == s[i]
    ensures forall i :: 0 <= i < |r| && i < RefetchCount && s[i].source == SearchHit && fetch(s[i].url).Some? ==>
      r[i].content == fetch(s[i].url).value.content
  {
    seq(|s|, i requires 0 <= i < |s| =>
      if i < RefetchCount && s[i].source == SearchHit && fetch(s[i].url).Some?
      then s[i].(content := fetch(s[i].url).value.content)
      else s[i])
  }

  /** Every entry scores at least 3, and direct results score 10. */
  ghost predicate WellScored(s: seq<ResearchResult>) {
    forall i :: 0 <= i < |s| ==>
      s[i].relevance >= MinRelevance && (s[i].source == DirectUrl ==> s[i].relevance == DirectRelevance)
  }

  lemma CollectedAreWellScored(urls: seq<string>, answers: seq<Option<seq<Hit>>>, relevance: Hit -> Option<int>,
                               fetch: string -> Option<Page>)
    ensures WellScored(AddAnswers(DirectResults(urls, fetch), answers, relevance))
  {
    var direct := DirectResults(urls, fetch);
    var all := AddAnswers(direct, answers, relevance);
    forall i | 0 <= i < |all| && i < |direct|
      ensures all[i] == direct[i]
    {
      assert all[i] == all[..|direct|][i];
    }
  }

  lemma SortKeepsWellScored(s: seq<ResearchResult>)
    requires WellScored(s)
    ensures WellScored(Sorting.SortDesc(s, RelevanceKey))
  {
    var sorted := Sorting.SortDesc(s, RelevanceKey);
    forall i | 0 <= i < |sorted|
      ensures sorted[i].relevance >= MinRelevance
      ensures sorted[i].source == DirectUrl ==> sorted[i].relevance == DirectRelevance
    {
      assert sorted[i] in multiset(s);
    }
  }

  /** An entry with its content blanked: what refetching cannot change. */
  function Shape(x: ResearchResult): ResearchResult {
    x.(content := "")
  }

  /** Refetching a sorted, well-scored rearrangement of `all` keeps it
      sorted and well scored, and changes no entry's shape. */
  lemma RefetchKeepsShapes(s: seq<ResearchResult>, all: seq<ResearchResult>, fetch: string -> Option<Page>)
    requires Sorting.SortedDesc(s, RelevanceKey) && WellScored(s) && multiset(s) == multiset(all)
    ensures Sorting.SortedDesc(Refetch(s, fetch), RelevanceKey) && WellScored(Refetch(s, fetch))
    ensures multiset(Sorting.Map(Refetch(s, fetch), Shape)) == multiset(Sorting.Map(all, Shape))
  {
    var r := Refetch(s, fetch);
    forall i | 0 <= i < |r| ensures r[i].relevance == s[i].relevance && r[i].source == s[i].source {
      assert r[i].(content := s[i].content) == s[i];
    }
    assert Sorting.Map(r, Shape) == Sorting.Map(s, Shape) by {
      forall i | 0 <= i < |r| ensures Shape(r[i]) == Shape(s[i]) {
        assert r[i].(content := s[i].content) == s[i];
      }
    }
    Sorting.MapKeepsPermutation(s, all, Shape);
  }

  /** The node's `search_results` list at the end of step 4: direct results,
      then the accepted search hits, stably sorted by decreasing relevance,
      the leading search results refetched. Apart from content, the list is a
      rearrangement of the collected entries. */
  function ResearchResults(urls: seq<string>, answers: seq<Option<seq<Hit>>>, relevance: Hit -> Option<int>,
                           fetch: string -> Option<Page>): (r: seq<ResearchResult>)
    ensures Sorting.SortedDesc(r, RelevanceKey)
    ensures forall i :: 0 <= i < |r| ==> r[i].relevance >= MinRelevance
    ensures forall i :: 0 <= i < |r| && r[i].source == DirectUrl ==> r[i].relevance == DirectRelevance
    ensures |r| == |AddAnswers(DirectResults(urls, fetch), answers, relevance)|
    ensures multiset(Sorting.Map(r, Shape))
         == multiset(Sorting.Map(AddAnswers(DirectResults(urls, fetch), answers, relevance), Shape))
  {
    var all := AddAnswers(DirectResults(urls, fetch), answers, relevance);
    CollectedAreWellScored(urls, answers, relevance, fetch);
    var sorted := Sorting.SortDesc(all, RelevanceKey);
    SortKeepsWellScored(all);
    RefetchKeepsShapes(sorted, all, fetch);
    Refetch(sorted, fetch)
  }

  /** With no repeated URL among the fetched resume links, the collected
      results never hold two entries with the same non-empty URL. */
  lemma ResearchUrlsDistinct(urls: seq<string>, answers: seq<Option<seq<Hit>>>, relevance: Hit -> Option<int>,
                             fetch: string -> Option<Page>)
    requires forall i, j :: 0 <= i < j < |urls| ==> urls[i] != urls[j]
    ensures DistinctUrls(AddAnswers(DirectResults(urls, fetch), answers, relevance))
  {
    DirectResultsDistinct(urls, fetch);
    AddAnswersKeepsUrlsDistinct(DirectResults(urls, fetch), answers, relevance);
  }

  lemma {:induction false} DirectResultsDistinct(urls: seq<string>, fetch: string -> Option<Page>)
    requires forall i, j :: 0 <= i < j < |urls| ==> urls[i] != urls[j]
    ensures DistinctUrls(DirectResults(urls, fetch))
    decreases |urls|
  {
    if |urls| > 0 {
      DirectResultsDistinct(urls[1..], fetch);
      var rest := DirectResults(urls[1..], fetch);
      if fetch(urls[0]).Some? {
        DirectUrlsFromInput(urls[1..], fetch);
        assert urls[0] !in urls[1..] by {
          forall j | 0 <= j < |urls[1..]| ensures urls[1..][j] != urls[0] {
            assert urls[1..][j] == urls[j + 1];
          }
        }
        var r := DirectResults(urls, fetch);
        assert r == [DirectEntry(urls[0], fetch(urls[0]).value)] + rest;
        forall i, j | 0 <= i < j < |r| && r[j].url != "" ensures r[i].url != r[j].url {
          assert r[j] == rest[j - 1];
          if i > 0 {
            assert r[i] == rest[i - 1];
          } else {
            assert rest[j - 1].url in urls[1..];
          }
        }
      }
    }
  }

  /** Every direct entry's URL is one of the resume URLs. */
  lemma DirectUrlsFromInput(urls: seq<string>, fetch: string -> Option<Page>)
    ensures forall i :: 0 <= i < |DirectResults(urls, fetch)| ==> DirectResults(urls, fetch)[i].url in urls
  {
    Sorting.FilterSubseq(urls, Fetched(fetch));
  }

  // ------------------------------------------------ web_research_node

  /** The research summary used when the analysis call fails. */
  const NoRepositories := "No verified repositories found"
  const FallbackWeb := WebResearch(
    [NoRepositories],
    ["No verified blog posts found"],
    ["No verified conference talks found"],
    ["No verified social mentions found"])

  /** `web_research_node`: the analysis (or its fallback) under
      `web_structured` and the username map of the stored URLs under
      `usernames`. */
  function WebResearchNode(state: State, analysis: Option<WebResearch>, extract: string -> Extracted): (r: State)
    requires CandidateNameKey in state && ResumeStructuredKey in state
    ensures AddsOnly(state, r, {WebStructuredKey, UsernamesKey})
    ensures r[WebStructuredKey] == WebValue(analysis.GetOr(FallbackWeb))
    ensures r[UsernamesKey].UsernameMap?
    ensures (ExtractedUrlsKey !in state || !state[ExtractedUrlsKey].UrlList?) ==> r[UsernamesKey].usernames == map[]
    ensures ExtractedUrlsKey in state && state[ExtractedUrlsKey].UrlList? ==>
      r[UsernamesKey] == UsernameMap(Usernames(state[ExtractedUrlsKey].urls, extract))
  {
    var urls := if ExtractedUrlsKey in state && state[ExtractedUrlsKey].UrlList? then state[ExtractedUrlsKey].urls else [];
    state[WebStructuredKey := WebValue(analysis.GetOr(FallbackWeb))][UsernamesKey := UsernameMap(Usernames(urls, extract))]
  }

  // -------------------------------------------------- fit_score_node

  /** Python truthiness of an optional string: present and non-empty. */
  predicate Truthy(s: Option<string>) {
    s.Some? && s.value != ""
  }

  /** The date part of an experience line: both dates, or the start date to
      the present, or nothing. */
  function DatePart(e: ExperienceEntry): string {
    if Truthy(e.startDate) && Truthy(e.endDate) then " (" + e.startDate.value + " to " + e.endDate.value + ")"
    else if Truthy(e.startDate) then " (from " + e.startDate.value + " to Present)"
    else ""
  }

  /** One line of `experience_formatted`: the role, then the dates when the
      start date is set, then the description when it is set. */
  function ExperienceLine(e: ExperienceEntry): (line: string)
    ensures !Truthy(e.startDate) && !Truthy(e.description) ==> line == e.title + " at " + e.company
    ensures !Truthy(e.startDate) && Truthy(e.description) ==>
      line == e.title + " at " + e.company + ": " + e.description.value
    ensures Truthy(e.startDate) && Truthy(e.endDate) && !Truthy(e.description) ==>
      line == e.title + " at " + e.company + " (" + e.startDate.value + " to " + e.endDate.value + ")"
    ensures Truthy(e.startDate) && Truthy(e.endDate) && Truthy(e.description) ==>
      line == e.title + " at " + e.company + " (" + e.startDate.value + " to " + e.endDate.value + ")"
              + ": " + e.description.value
    ensures Truthy(e.startDate) && !Truthy(e.endDate) && !Truthy(e.description) ==>
      line == e.title + " at " + e.company + " (from " + e.startDate.value + " to Present)"
    ensures Truthy(e.startDate) && !Truthy(e.endDate) && Truthy(e.description) ==>
      line == e.title + " at " + e.company + " (from " + e.startDate.value + " to Present)"
              + ": " + e.description.value
  {
    var head := e.title + " at " + e.company + DatePart(e);
    if Truthy(e.description) then head + ": " + e.description.value else head
  }

  /** Reading a line back: it starts with the role, the date part follows
      the role, and a set description closes the line. */
  lemma ExperienceLineParts(e: ExperienceEntry)
    ensures StartsWith(ExperienceLine(e), e.title + " at " + e.company)
    ensures StartsWith(ExperienceLine(e)[|e.title + " at " + e.company|..], DatePart(e))
    ensures Truthy(e.description) ==> EndsWith(ExperienceLine(e), ": " + e.description.value)
  {
    var role := e.title + " at " + e.company;
    var dates := DatePart(e);
    var tail := if Truthy(e.description) then ": " + e.description.value else "";
    var line := ExperienceLine(e);
    assert line == role + dates + tail;
    assert line[..|role|] == role;
    assert line[|role|..] == dates + tail;
    assert (dates + tail)[..|dates|] == dates;
    assert line[|line| - |tail|..] == tail;
  }

  /** The whole `experience_formatted` list: one line per entry, in order. */
  function ExperienceLines(experience: seq<ExperienceEntry>): (lines: seq<string>)
    ensures |lines| == |experience|
    ensures forall i :: 0 <= i < |lines| ==> lines[i] == ExperienceLine(experience[i])
  {
    seq(|experience|, i requires 0 <= i < |experience| => ExperienceLine(experience[i]))
  }

  /** `has_github_projects`: some repository entry is not the sentinel. */
  function HasGithubProjects(repos: seq<string>): (b: bool)
    ensures b <==> exists i :: 0 <= i < |repos| && repos[i] != NoRepositories
  {
    exists i | 0 <= i < |repos| :: repos[i] != NoRepositories
  }

  /** The fallback research never counts as GitHub evidence. */
  lemma FallbackHasNoGithubProjects()
    ensures !HasGithubProjects(FallbackWeb.githubRepos)
  {
  }

  /** `fit_score_node`: the assessment call is not guarded, so a failed call
      fails the node (`None`). Otherwise the assessment and its rendering are
      stored under `fit_assessment` and `formatted_output`. The model's other
      unguarded calls (creating the language-model client, the renderer) are
      taken never to raise. */
  function FitScoreNode(state: State, assessment: Option<FitAssessment>, render: FitAssessment -> string)
    : (r: Option<State>)
    requires JdStructuredKey in state && ResumeStructuredKey in state && WebStructuredKey in state
    ensures r.None? <==> assessment.None?
    ensures r.Some? ==> AddsOnly(state, r.value, {FitAssessmentKey, FormattedOutputKey})
    ensures r.Some? ==> r.value[FitAssessmentKey] == FitValue(assessment.value)
    ensures r.Some? ==> r.value[FormattedOutputKey] == Text(render(assessment.value))
  {
    match assessment
    case None => None
    case Some(fit) => Some(state[FitAssessmentKey := FitValue(fit)][FormattedOutputKey := Text(render(fit))])
  }
}

=== FILE: agent_slice.dfy ===
/** The Redux `agent` slice of the frontend: a reducer over the list of past
    runs, a loading flag, the last error message and the run being shown.
    Two asynchronous actions (fetching the run history and starting a run)
    each dispatch a pending, a fulfilled and a rejected event; `setCurrentRun`
    is the one plain setter. */
module AgentSlice {
  import opened Wrappers
  import Sorting

  /** The parts of a stored run that the frontend reads; every field the
      pages access with `?.` is optional. */
  datatype ScoreDetails = ScoreDetails(skillMatchPercentage: Option<real>)
  datatype FitView = FitView(fitScore: Option<string>, scoreDetails: Option<ScoreDetails>)
  datatype RunOutput = RunOutput(jdTitle: Option<string>, fitAssessment: Option<FitView>)
  datatype RunInput = RunInput(candidateName: Option<string>, resumeText: string, jobDescription: string)
  datatype AgentRun = AgentRun(id: string, timestamp: string, input: Option<RunInput>, output: Option<RunOutput>)

  datatype AgentState = AgentState(
    runs: seq<AgentRun>,
    loading: bool,
    error: Option<string>,
    currentRun: Option<AgentRun>)

  const FetchRunsDefaultError := "Failed to fetch agent runs"
  const RunAgentDefaultError := "Failed to run agent"

  /** The events the slice handles. A rejection carries the thrown error's
      `message`, which may be missing or empty. */
  datatype Action =
    | SetCurrentRun(selected: Option<AgentRun>)
    | FetchRunsPending
    | FetchRunsFulfilled(payload: seq<AgentRun>)
    | FetchRunsRejected(message: Option<string>)
    | RunAgentPending
    | RunAgentFulfilled(run: AgentRun)
    | RunAgentRejected(message: Option<string>)

  predicate IsPending(a: Action) {
    a.FetchRunsPending? || a.RunAgentPending?
  }

  predicate IsFulfilled(a: Action) {
    a.FetchRunsFulfilled? || a.RunAgentFulfilled?
  }

  predicate IsRejected(a: Action) {
    a.FetchRunsRejected? || a.RunAgentRejected?
  }

  /** The state the store starts from. */
  function Initial(): (s: AgentState)
    ensures s.runs == [] && !s.loading && s.error.None? && s.currentRun.None?
  {
    AgentState([], false, None, None)
  }

  /** `action.error.message || fallback`: an absent or empty message is
      replaced by the fallback, so the stored error is never empty. */
  function ErrorText(message: Option<string>, fallback: string): (m: string)
    requires fallback != ""
    ensures m != ""
    ensures message.Some? && message.value != "" ==> m == message.value
    ensures message.None? || message.value == "" ==> m == fallback
  {
    if message.Some? && message.value != "" then message.value else fallback
  }

  /** The message a rejection stores. */
  function RejectionText(a: Action): string
    requires IsRejected(a)
  {
    if a.FetchRunsRejected? then ErrorText(a.message, FetchRunsDefaultError)
    else ErrorText(a.message, RunAgentDefaultError)
  }

  /** One step of the reducer. Each case changes only the fields its handler
      assigns. */
  function Reduce(s: AgentState, a: Action): (r: AgentState)
    ensures IsPending(a) ==> r.loading && r.error.None? && r.runs == s.runs && r.currentRun == s.currentRun
    ensures a.FetchRunsFulfilled? ==>
      !r.loading && r.runs == a.payload && r.error == s.error && r.currentRun == s.currentRun
    ensures a.RunAgentFulfilled? ==>
      && !r.loading && r.currentRun == Some(a.run) && r.error == s.error
      && |r.runs| == |s.runs| + 1 && r.runs[0] == a.run && r.runs[1..] == s.runs
    ensures IsRejected(a) ==>
      && !r.loading && r.runs == s.runs && r.currentRun == s.currentRun
      && r.error.Some? && r.error.value != ""
    ensures a.SetCurrentRun? ==>
      r.currentRun == a.selected && r.runs == s.runs && r.loading == s.loading && r.error == s.error
  {
    match a
    case SetCurrentRun(selected) => s.(currentRun := selected)
    case FetchRunsPending => s.(loading := true, error := None)
    case FetchRunsFulfilled(payload) => s.(loading := false, runs := payload)
    case FetchRunsRejected(_) => s.(loading := false, error := Some(RejectionText(a)))
    case RunAgentPending => s.(loading := true, error := None)
    case RunAgentFulfilled(run) => s.(loading := false, currentRun := Some(run), runs := [run] + s.runs)
    case RunAgentRejected(_) => s.(loading := false, error := Some(RejectionText(a)))
  }

  /** The state after dispatching the events of `t` in order. */
  function ReduceAll(s: AgentState, t: seq<Action>): AgentState
    decreases |t|
  {
    if |t| == 0 then s else Reduce(ReduceAll(s, t[..|t| - 1]), t[|t| - 1])
  }

  /** The last event of `t` that satisfies `p`, if any. */
  function LastWhere(t: seq<Action>, p: Action -> bool): (r: Option<Action>)
    ensures r.Some? ==> p(r.value) && r.value in t
    ensures r.None? ==> forall i :: 0 <= i < |t| ==> !p(t[i])
    decreases |t|
  {
    if |t| == 0 then None
    else if p(t[|t| - 1]) then Some(t[|t| - 1])
    else LastWhere(t[..|t| - 1], p)
  }

  predicate IsAsync(a: Action) {
    !a.SetCurrentRun?
  }

  predicate TouchesError(a: Action) {
    IsPending(a) || IsRejected(a)
  }

  predicate TouchesCurrentRun(a: Action) {
    a.SetCurrentRun? || a.RunAgentFulfilled?
  }

  /** From the initial state, the loading flag is set exactly when the most
      recent request event is a pending one. Both requests share this one
      flag, so with interleaved requests it can be clear while an earlier
      request is still outstanding. */
  lemma {:induction false} LoadingIffLastRequestPending(t: seq<Action>)
    ensures ReduceAll(Initial(), t).loading <==>
      (LastWhere(t, IsAsync).Some? && IsPending(LastWhere(t, IsAsync).value))
    decreases |t|
  {
    if |t| > 0 {
      LoadingIffLastRequestPending(t[..|t| - 1]);
    }
  }

  /** From the initial state, an error is stored exactly when the most recent
      event that touches the error is a rejection, and it is that rejection's
      message (or its fallback). Fulfilled events leave a previous error in
      place. */
  lemma {:induction false} ErrorIsLastRejection(t: seq<Action>)
    ensures var last := LastWhere(t, TouchesError);
      ReduceAll(Initial(), t).error ==
        if last.Some? && IsRejected(last.value) then Some(RejectionText(last.value)) else None
    decreases |t|
  {
    if |t| > 0 {
      ErrorIsLastRejection(t[..|t| - 1]);
    }
  }

  /** From the initial state, the current run is the one named by the most
      recent `setCurrentRun` or successful `runAgent`. */
  lemma {:induction false} CurrentRunIsLastSelected(t: seq<Action>)
    ensures var last := LastWhere(t, TouchesCurrentRun);
      ReduceAll(Initial(), t).currentRun ==
        if last.None? then None
        else if last.value.SetCurrentRun? then last.value.selected
        else Some(last.value.run)
    decreases |t|
  {
    if |t| > 0 {
      CurrentRunIsLastSelected(t[..|t| - 1]);
    }
  }

  /** The run list depends only on the fulfilled events: dropping every
      pending, rejected and `setCurrentRun` event leaves it unchanged. */
  lemma {:induction false} RunsOnlyFromFulfilled(s: AgentState, t: seq<Action>)
    ensures ReduceAll(s, t).runs == ReduceAll(s, Sorting.Filter(t, IsFulfilled)).runs
    decreases |t|
  {
    if |t| > 0 {
      var u := t[..|t| - 1];
      var a := t[|t| - 1];
      var fu := Sorting.Filter(u, IsFulfilled);
      var ft := Sorting.Filter(t, IsFulfilled);
      assert ft == fu + (if IsFulfilled(a) then [a] else []) by {
        assert t == u + [a];
        Sorting.FilterConcat(u, [a], IsFulfilled);
        Sorting.FilterOne(a, IsFulfilled);
      }
      RunsOnlyFromFulfilled(s, u);
      if IsFulfilled(a) {
        assert (fu + [a])[..|fu|] == fu;
        assert ReduceAll(s, ft) == Reduce(ReduceAll(s, fu), a);
      } else {
        assert ft == fu;
      }
    }
  }
}

=== FILE: candidate_search.dfy ===
/** The text and list utilities of the stand-alone recruiter agent's
    candidate search: URL prefix normalisation, profile-username extraction,
    the search data read from a parsed resume, confidence filtering, search
    query clean-up with its fallback list, and the integer relevance score
    used to keep or drop a search hit.

    Regular-expression matching is not modelled: `re.findall` results arrive
    as a list of matched strings, and `re.search(pattern, url).group(1)` is an
    uninterpreted `search(pattern, url)` that yields the first capture or
    nothing. Language-model replies and search-engine hits are inputs. */
module CandidateSearch {
  import opened Wrappers
  import opened Text
  import Sorting
  import RecruiterTypes

  // ---------------------------------------------------------------- links

  predicate HasScheme(url: string) {
    StartsWith(url, "http://") || StartsWith(url, "https://")
  }

  /** A matched URL with `https://` prepended unless it already has a scheme. */
  function NormalizeUrl(url: string): (r: string)
    ensures HasScheme(r)
    ensures HasScheme(url) ==> r == url
    ensures !HasScheme(url) ==> r == "https://" + url
  {
    if HasScheme(url) then url
    else
      assert ("https://" + url)[..|"https://"|] == "https://";
      "https://" + url
  }

  /** Normalising twice is normalising once. */
  lemma NormalizeUrlIdempotent(url: string)
    ensures NormalizeUrl(NormalizeUrl(url)) == NormalizeUrl(url)
  {
  }

  /** `extract_links_from_text` after matching: one URL per match, in match
      order, each carrying a scheme. */
  function ExtractLinks(matches: seq<string>): (urls: seq<string>)
    ensures |urls| == |matches|
    ensures forall i :: 0 <= i < |urls| ==> HasScheme(urls[i])
    ensures forall i :: 0 <= i < |urls| && HasScheme(matches[i]) ==> urls[i] == matches[i]
    ensures forall i :: 0 <= i < |urls| && !HasScheme(matches[i]) ==> urls[i] == "https://" + matches[i]
  {
    seq(|matches|, i requires 0 <= i < |matches| => NormalizeUrl(matches[i]))
  }

  // ------------------------------------------------------------ usernames

  const GithubPatterns: seq<string> := [
    "github\\.com/([a-zA-Z0-9](?:-?[a-zA-Z0-9]){0,38})",
    "github\\.com/orgs/([^/]+)",
    "gist\\.github\\.com/([^/]+)"
  ]

  /** GitHub paths that are site sections, not users. */
  const GithubReserved: set<string> := {
    "search", "trending", "collections", "events", "topics",
    "marketplace", "pulls", "issues", "explore"
  }

  const LinkedinPatterns: seq<string> := [
    "linkedin\\.com/in/([^/]+)",
    "linkedin\\.com/pub/([^/]+)"
  ]

  const TwitterPatterns: seq<string> := [
    "twitter\\.com/([^/]+)",
    "x\\.com/([^/]+)"
  ]

  /** Twitter/X paths that are site sections, not users. */
  const TwitterReserved: set<string> := {
    "home", "search", "explore", "notifications", "messages", "i", "settings"
  }

  /** `re.search(pattern, url)` followed by `group(1)`, or nothing when the
      pattern does not match. */
  type Search = (string, string) -> Option<string>

  predicate Acceptable(capture: Option<string>, reserved: set<string>) {
    capture.Some? && capture.value !in reserved
  }

  /** The patterns tried in order on `url`. */
  function Captures(patterns: seq<string>, url: string, search: Search): (c: seq<Option<string>>)
    ensures |c| == |patterns|
    ensures forall i :: 0 <= i < |c| ==> c[i] == search(patterns[i], url)
  {
    seq(|patterns|, i requires 0 <= i < |patterns| => search(patterns[i], url))
  }

  /** The loop shared by the `extract_*_username` functions: the first capture
      that exists and is not reserved, or nothing. */
  function FirstAcceptable(captures: seq<Option<string>>, reserved: set<string>): (r: Option<string>)
    ensures r.Some? ==> r.value !in reserved
    ensures r.Some? ==> exists i :: 0 <= i < |captures| && captures[i] == r
                          && forall j :: 0 <= j < i ==> !Acceptable(captures[j], reserved)
    ensures r.None? <==> forall i :: 0 <= i < |captures| ==> !Acceptable(captures[i], reserved)
    decreases |captures|
  {
    if |captures| == 0 then None
    else if Acceptable(captures[0], reserved) then captures[0]
    else
      var r := FirstAcceptable(captures[1..], reserved);
      if r.Some? then
        var i :| 0 <= i < |captures[1..]| && captures[1..][i] == r
                 && forall j :: 0 <= j < i ==> !Acceptable(captures[1..][j], reserved);
        assert captures[i + 1] == r;
        r
      else r
  }

  /** `extract_github_username` */
  function GithubUsername(url: string, search: Search): (r: Option<string>)
    ensures r.Some? ==> r.value !in GithubReserved
  {
    FirstAcceptable(Captures(GithubPatterns, url, search), GithubReserved)
  }

  /** `extract_linkedin_username`: no reserved words. */
  function LinkedinUsername(url: string, search: Search): (r: Option<string>)
    ensures r.None? <==> search(LinkedinPatterns[0], url).None? && search(LinkedinPatterns[1], url).None?
    ensures search(LinkedinPatterns[0], url).Some? ==> r == search(LinkedinPatterns[0], url)
  {
    FirstAcceptable(Captures(LinkedinPatterns, url, search), {})
  }

  /** `extract_twitter_username` */
  function TwitterUsername(url: string, search: Search): (r: Option<string>)
    ensures r.Some? ==> r.value !in TwitterReserved
  {
    FirstAcceptable(Captures(TwitterPatterns, url, search), TwitterReserved)
  }

  /** A reserved first capture never wins: the profile pattern is skipped and
      the organisation and gist patterns decide. */
  lemma ReservedGithubPathFallsThrough(url: string, search: Search)
    requires search(GithubPatterns[0], url).Some? && search(GithubPatterns[0], url).value in GithubReserved
    ensures GithubUsername(url, search)
            == FirstAcceptable([search(GithubPatterns[1], url), search(GithubPatterns[2], url)], GithubReserved)
  {
    var c := Captures(GithubPatterns, url, search);
    assert c[1..] == [search(GithubPatterns[1], url), search(GithubPatterns[2], url)];
  }

  // ---------------------------------------------------- resume search data

  /** The resume fields `extract_resume_search_data` reads; a missing key or
      attribute is `None`. */
  datatype ExperienceView = ExperienceView(company: Option<string>, title: Option<string>)
  datatype ResumeView = ResumeView(
    personalName: Option<string>,
    experience: seq<ExperienceView>,
    institutions: seq<Option<string>>,
    skills: seq<string>)

  datatype SearchData = SearchData(
    name: string,
    companies: seq<string>,
    education: seq<string>,
    skills: seq<string>,
    uniqueIds: seq<string>,
    jobTitle: string)

  /** The non-empty values of a list of optional strings, in order. */
  function PresentValues(values: seq<Option<string>>): (r: seq<string>)
    ensures |r| <= |values|
    ensures forall i :: 0 <= i < |r| ==> r[i] != "" && Some(r[i]) in values
    ensures forall i :: 0 <= i < |values| && values[i].Some? && values[i].value != "" ==> values[i].value in r
    decreases |values|
  {
    if |values| == 0 then []
    else
      assert values == [values[0]] + values[1..];
      (if values[0].Some? && values[0].value != "" then [values[0].value] else [])
      + PresentValues(values[1..])
  }

  /** Keeping the values of a concatenation keeps those of each part, so the
      input order survives. */
  lemma {:induction false} PresentValuesConcat(a: seq<Option<string>>, b: seq<Option<string>>)
    ensures PresentValues(a + b) == PresentValues(a) + PresentValues(b)
    decreases |a|
  {
    if |a| > 0 {
      assert (a + b)[1..] == a[1..] + b;
      PresentValuesConcat(a[1..], b);
    } else {
      assert a + b == b;
    }
  }

  function CompaniesOf(experience: seq<ExperienceView>): (c: seq<Option<string>>)
    ensures |c| == |experience|
    ensures forall i :: 0 <= i < |c| ==> c[i] == experience[i].company
  {
    seq(|experience|, i requires 0 <= i < |experience| => experience[i].company)
  }

  /** The first non-empty title of the experience list, or "". */
  function FirstTitle(experience: seq<ExperienceView>): (t: string)
    ensures t != "" ==> exists i :: 0 <= i < |experience| && experience[i].title == Some(t)
                          && forall j :: 0 <= j < i ==> experience[j].title.None? || experience[j].title.value == ""
    ensures t == "" <==> forall i :: 0 <= i < |experience| ==> experience[i].title.None? || experience[i].title.value == ""
    decreases |experience|
  {
    if |experience| == 0 then ""
    else if experience[0].title.Some? && experience[0].title.value != "" then experience[0].title.value
    else
      var t := FirstTitle(experience[1..]);
      if t != "" then
        var i :| 0 <= i < |experience[1..]| && experience[1..][i].title == Some(t)
                 && forall j :: 0 <= j < i ==> experience[1..][j].title.None? || experience[1..][j].title.value == "";
        assert experience[i + 1].title == Some(t);
        t
      else t
  }

  /** `extract_resume_search_data` */
  function ResumeSearchData(resume: ResumeView): (d: SearchData)
    ensures d.name == resume.personalName.GetOr("")
    ensures d.companies == PresentValues(CompaniesOf(resume.experience))
    ensures d.education == PresentValues(resume.institutions)
    ensures d.skills == resume.skills
    ensures d.uniqueIds == []
    ensures d.jobTitle == FirstTitle(resume.experience)
  {
    SearchData(
      resume.personalName.GetOr(""),
      PresentValues(CompaniesOf(resume.experience)),
      PresentValues(resume.institutions),
      resume.skills,
      [],
      FirstTitle(resume.experience))
  }

  /** Adding an experience entry at the end only ever appends its company
      and never changes an already found title. */
  lemma ResumeSearchDataExtends(resume: ResumeView, e: ExperienceView)
    ensures var d := ResumeSearchData(resume);
            var d' := ResumeSearchData(resume.(experience := resume.experience + [e]));
            && d'.companies == d.companies + PresentValues([e.company])
            && (d.jobTitle != "" ==> d'.jobTitle == d.jobTitle)
  {
    assert CompaniesOf(resume.experience + [e]) == CompaniesOf(resume.experience) + [e.company];
    PresentValuesConcat(CompaniesOf(resume.experience), [e.company]);
    var t := FirstTitle(resume.experience);
    if t != "" {
      FirstTitleOfPrefix(resume.experience, [e]);
    }
  }

  lemma {:induction false} FirstTitleOfPrefix(a: seq<ExperienceView>, b: seq<ExperienceView>)
    requires FirstTitle(a) != ""
    ensures FirstTitle(a + b) == FirstTitle(a)
    decreases |a|
  {
    assert (a + b)[0] == a[0];
    if !(a[0].title.Some? && a[0].title.value != "") {
      assert (a + b)[1..] == a[1..] + b;
      FirstTitleOfPrefix(a[1..], b);
    }
  }

  // ------------------------------------------------- confidence filtering

  const DefaultThreshold: real := 0.3

  /** A search result tagged with its identity-confidence score. */
  datatype Scored<T> = Scored(result: T, confidence: real)

  function Confidence<T>(s: Scored<T>): real {
    s.confidence
  }

  function AtLeast<T>(threshold: real): Scored<T> -> bool {
    (s: Scored<T>) => s.confidence >= threshold
  }

  function TagAll<T>(results: seq<T>, confidence: T -> real): (r: seq<Scored<T>>)
    ensures |r| == |results|
    ensures forall i :: 0 <= i < |r| ==> r[i] == Scored(results[i], confidence(results[i]))
    decreases |results|
  {
    if |results| == 0 then []
    else [Scored(results[0], confidence(results[0]))] + TagAll(results[1..], confidence)
  }

  /** `filter_search_results`: keeps the results whose confidence reaches the
      threshold, tags them, and sorts them by decreasing confidence. The
      scoring function itself is an input. */
  function FilterSearchResults<T>(results: seq<T>, confidence: T -> real, threshold: real): (r: seq<Scored<T>>)
    ensures Sorting.SortedDesc(r, Confidence)
    ensures forall i :: 0 <= i < |r| ==> r[i].confidence >= threshold
    ensures forall i :: 0 <= i < |r| ==> r[i].confidence == confidence(r[i].result)
    ensures |r| <= |results|
  {
    var tagged := TagAll(results, confidence);
    var kept := Sorting.Filter(tagged, AtLeast(threshold));
    var r := Sorting.SortDesc(kept, Confidence);
    Sorting.FilterSubseq(tagged, AtLeast(threshold));
    forall i | 0 <= i < |r|
      ensures r[i].confidence >= threshold && r[i].confidence == confidence(r[i].result)
    {
      assert r[i] in multiset(kept);
      var j :| 0 <= j < |kept| && kept[j] == r[i];
      assert AtLeast(threshold)(kept[j]);
    }
    r
  }

  /** Kept results with equal confidence stay in their input order. */
  lemma FilterSearchResultsIsStable<T>(results: seq<T>, confidence: T -> real, threshold: real, k: real)
    ensures Sorting.Filter(FilterSearchResults(results, confidence, threshold), Sorting.KeyIs(Confidence, k))
         == Sorting.Filter(Sorting.Filter(TagAll(results, confidence), AtLeast(threshold)), Sorting.KeyIs(Confidence, k))
  {
    Sorting.SortDescIsStable(Sorting.Filter(TagAll(results, confidence), AtLeast(threshold)), Confidence, k);
  }

  /** Exactly the results at or above the threshold survive, each as often as
      it occurs in the input. */
  lemma FilterSearchResultsKeepsExactly<T>(results: seq<T>, confidence: T -> real, threshold: real, x: T)
    ensures multiset(FilterSearchResults(results, confidence, threshold))[Scored(x, confidence(x))]
            == if confidence(x) >= threshold then multiset(results)[x] else 0
  {
    var tagged := TagAll(results, confidence);
    Sorting.FilterCounts(tagged, AtLeast(threshold), Scored(x, confidence(x)));
    TagAllCounts(results, confidence, x);
  }

  lemma {:induction false} TagAllCounts<T>(results: seq<T>, confidence: T -> real, x: T)
    ensures multiset(TagAll(results, confidence))[Scored(x, confidence(x))] == multiset(results)[x]
    decreases |results|
  {
    if |results| > 0 {
      TagAllCounts(results[1..], confidence, x);
      TagAllCons(results, confidence);
      HeadSplit(results);
      var head := Scored(results[0], confidence(results[0]));
      if results[0] == x {
        assert multiset{head}[Scored(x, confidence(x))] == 1 && multiset{results[0]}[x] == 1;
      } else {
        assert multiset{head}[Scored(x, confidence(x))] == 0 && multiset{results[0]}[x] == 0;
      }
    }
  }

  lemma HeadSplit<T>(s: seq<T>)
    requires |s| > 0
    ensures multiset(s) == multiset{s[0]} + multiset(s[1..])
  {
    assert s == [s[0]] + s[1..];
  }

  lemma TagAllCons<T>(results: seq<T>, confidence: T -> real)
    requires |results| > 0
    ensures multiset(TagAll(results, confidence))
         == multiset{Scored(results[0], confidence(results[0]))} + multiset(TagAll(results[1..], confidence))
  {
    assert TagAll(results, confidence) == [Scored(results[0], confidence(results[0]))] + TagAll(results[1..], confidence);
  }

  // ----------------------------------------------------- search queries

  function NonBlank(q: string): bool {
    q != ""
  }

  /** Each line of `text.strip()`, stripped, with blank lines dropped:
      `[q.strip() for q in lines if q.strip()]`. */
  function CleanLines(lines: seq<string>): (r: seq<string>)
    ensures r == Sorting.Filter(Sorting.Map(lines, Strip), NonBlank)
    ensures |r| <= |lines|
    ensures forall i :: 0 <= i < |r| ==> r[i] != [] && !IsSpace(r[i][0]) && !IsSpace(r[i][|r[i]| - 1])
    decreases |lines|
  {
    if |lines| == 0 then []
    else
      var q := Strip(lines[0]);
      assert Sorting.Map(lines, Strip)[1..] == Sorting.Map(lines[1..], Strip);
      (if q != "" then [q] else []) + CleanLines(lines[1..])
  }

  /** A cleaned query is exactly a non-blank stripped line. */
  lemma {:induction false} CleanLinesMembers(lines: seq<string>, x: string)
    ensures x in CleanLines(lines) <==> x != "" && exists i :: 0 <= i < |lines| && Strip(lines[i]) == x
    decreases |lines|
  {
    if |lines| > 0 {
      CleanLinesMembers(lines[1..], x);
      if exists i :: 0 <= i < |lines[1..]| && Strip(lines[1..][i]) == x {
        var i :| 0 <= i < |lines[1..]| && Strip(lines[1..][i]) == x;
        assert Strip(lines[i + 1]) == x;
      }
      if exists i :: 0 <= i < |lines| && Strip(lines[i]) == x {
        var i :| 0 <= i < |lines| && Strip(lines[i]) == x;
        if i > 0 {
          assert Strip(lines[1..][i - 1]) == x;
        }
      }
    }
  }

  /** The position of the first occurrence of `x` in `s`. */
  function FirstIndex<T(==)>(s: seq<T>, x: T): (i: nat)
    requires x in s
    ensures i < |s| && s[i] == x
    ensures forall j :: 0 <= j < i ==> s[j] != x
  {
    if s[0] == x then 0 else 1 + FirstIndex(s[1..], x)
  }

  /** `list(dict.fromkeys(queries))`: drops repeats, keeping each query at its
      first occurrence. */
  method Dedup(s: seq<string>) returns (r: seq<string>)
    ensures forall i, j :: 0 <= i < j < |r| ==> r[i] != r[j]
    ensures forall x :: x in r <==> x in s
    ensures forall i, j :: 0 <= i < j < |r| ==> FirstIndex(s, r[i]) < FirstIndex(s, r[j])
  {
    r := [];
    var n := 0;
    while n < |s|
      invariant 0 <= n <= |s|
      invariant forall i, j :: 0 <= i < j < |r| ==> r[i] != r[j]
      invariant forall x :: x in r <==> x in s[..n]
      invariant forall i :: 0 <= i < |r| ==> r[i] in s && FirstIndex(s, r[i]) < n
      invariant forall i, j :: 0 <= i < j < |r| ==> FirstIndex(s, r[i]) < FirstIndex(s, r[j])
    {
      if s[n] !in r {
        assert s[n] !in s[..n];
        r := r + [s[n]];
      }
      assert s[..n + 1] == s[..n] + [s[n]];
      n := n + 1;
    }
    assert s[..n] == s;
  }

  /** The basic queries used when the model call fails: four fixed ones, then
      one each for the first company, school and skill when present. */
  function FallbackQueries(d: SearchData): (q: seq<string>)
    ensures 4 <= |q| <= 7
    ensures q[..4] == [d.name + " github", d.name + " linkedin", d.name + " conference talk", d.name + " blog post"]
    ensures |q| == 4 + (if |d.companies| > 0 then 1 else 0) + (if |d.education| > 0 then 1 else 0)
                     + (if |d.skills| > 0 then 1 else 0)
    ensures forall i :: 0 <= i < |q| ==> StartsWith(q[i], d.name + " ")
  {
    var base := [d.name + " github", d.name + " linkedin", d.name + " conference talk", d.name + " blog post"];
    var q := base
      + (if |d.companies| > 0 then [d.name + " " + d.companies[0]] else [])
      + (if |d.education| > 0 then [d.name + " " + d.education[0]] else [])
      + (if |d.skills| > 0 then [d.name + " " + d.skills[0]] else []);
    assert q[..4] == base;
    assert forall i :: 0 <= i < |q| ==> q[i][..|d.name + " "|] == d.name + " ";
    q
  }

  /** The optional fallback queries: the name with the first company, then
      with the first school, then with the first skill, each present only
      when its list is non-empty. */
  lemma FallbackOptionalQueries(d: SearchData)
    ensures var q := FallbackQueries(d);
      && (|d.companies| > 0 ==> q[4] == d.name + " " + d.companies[0])
      && (|d.education| > 0 ==> q[4 + (if |d.companies| > 0 then 1 else 0)] == d.name + " " + d.education[0])
      && (|d.skills| > 0 ==> q[|q| - 1] == d.name + " " + d.skills[0])
  {
    var base := [d.name + " github", d.name + " linkedin", d.name + " conference talk", d.name + " blog post"];
    var company := if |d.companies| > 0 then [d.name + " " + d.companies[0]] else [];
    var school := if |d.education| > 0 then [d.name + " " + d.education[0]] else [];
    var skill := if |d.skills| > 0 then [d.name + " " + d.skills[0]] else [];
    var q := base + company + school + skill;
    assert FallbackQueries(d) == q;
    assert |company| > 0 ==> q[4] == company[0];
    assert |school| > 0 ==> q[4 + |company|] == school[0];
    assert |skill| > 0 ==> q[|q| - 1] == skill[0];
  }

  /** `generate_search_queries`: the model's reply (or `None` when the call
      raised) becomes the de-duplicated list of its non-blank lines; a failed
      call gives the fallback list. */
  method GenerateSearchQueries(d: SearchData, reply: Option<string>) returns (queries: seq<string>)
    ensures reply.None? ==> queries == FallbackQueries(d)
    ensures reply.Some? ==> forall i, j :: 0 <= i < j < |queries| ==> queries[i] != queries[j]
    ensures reply.Some? ==> forall x :: x in queries <==> x in CleanLines(Split(Strip(reply.value), {'\n'}))
    ensures reply.Some? ==> forall i :: 0 <= i < |queries| ==> queries[i] != ""
    ensures reply.Some? ==> forall i, j :: 0 <= i < j < |queries| ==>
      && queries[i] in CleanLines(Split(Strip(reply.value), {'\n'}))
      && queries[j] in CleanLines(Split(Strip(reply.value), {'\n'}))
      && FirstIndex(CleanLines(Split(Strip(reply.value), {'\n'})), queries[i])
         < FirstIndex(CleanLines(Split(Strip(reply.value), {'\n'})), queries[j])
  {
    if reply.None? {
      queries := FallbackQueries(d);
    } else {
      var lines := CleanLines(Split(Strip(reply.value), {'\n'}));
      queries := Dedup(lines);
      forall i | 0 <= i < |queries| ensures queries[i] != "" {
        assert queries[i] in lines;
      }
    }
  }

  // ------------------------------------------------------ relevance score

  /** A search-engine hit, shared with the backend agent. */
  type Hit = RecruiterTypes.Hit

  /** A kept hit as stored for the research context. */
  datatype ScoredHit = ScoredHit(title: string, url: string, content: string, relevance: int)

  /** The part of a unique identifier after its first colon
      (`uid.split(':', 1)[1]`); the source fails without a colon. */
  function UidValue(uid: string): (v: string)
    requires ':' in uid
    ensures |v| < |uid|
    decreases |uid|
  {
    if uid[0] == ':' then uid[1..] else UidValue(uid[1..])
  }

  /** Identifiers are built as `platform:username`; the value is the username
      whatever it contains. */
  lemma {:induction false} UidValueOfTagged(platform: string, username: string)
    requires ':' !in platform
    ensures UidValue(platform + ":" + username) == username
    decreases |platform|
  {
    var uid := platform + ":" + username;
    if |platform| > 0 {
      assert uid[1..] == platform[1..] + ":" + username;
      UidValueOfTagged(platform[1..], username);
    } else {
      assert uid[1..] == username;
    }
  }

  /** `f"{platform}:{username}"` when the username is present and
      non-empty, else nothing. */
  function Tagged(platform: string, username: Option<string>): (ids: seq<string>)
    requires ':' !in platform
    ensures |ids| <= 1
    ensures |ids| == 1 <==> username.Some? && username.value != ""
    ensures |ids| == 1 ==> ':' in ids[0] && UidValue(ids[0]) == username.value
  {
    if username.Some? && username.value != "" then
      var id := platform + ":" + username.value;
      assert id[|platform|] == ':';
      UidValueOfTagged(platform, username.value);
      [id]
    else []
  }

  /** The identifiers one resume URL contributes: a GitHub one when the URL
      mentions `github.com`, a LinkedIn one for `linkedin.com/in/`, a
      Twitter one for `twitter.com` or `x.com`, each only when the matching
      extractor finds a username. */
  function UrlIdentifiers(url: string, search: Search): (ids: seq<string>)
    ensures |ids| <= 3
    ensures forall i :: 0 <= i < |ids| ==> ':' in ids[i]
    ensures (!Contains(url, "github.com") && !Contains(url, "linkedin.com/in/")
             && !Contains(url, "twitter.com") && !Contains(url, "x.com")) ==> ids == []
  {
    Tagged("github", if Contains(url, "github.com") then GithubUsername(url, search) else None)
    + Tagged("linkedin", if Contains(url, "linkedin.com/in/") then LinkedinUsername(url, search) else None)
    + Tagged("twitter", if Contains(url, "twitter.com") || Contains(url, "x.com") then TwitterUsername(url, search) else None)
  }

  /** `unique_identifiers`, gathered over the resume URLs in order. Every
      identifier has the colon the relevance score splits on. */
  function ProfileIdentifiers(urls: seq<string>, search: Search): (ids: seq<string>)
    ensures forall i :: 0 <= i < |ids| ==> ':' in ids[i]
    ensures |ids| <= 3 * |urls|
    decreases |urls|
  {
    if |urls| == 0 then []
    else UrlIdentifiers(urls[0], search) + ProfileIdentifiers(urls[1..], search)
  }

  /** The test "occurs in `hay` once lower-cased". */
  function FoundIn(hay: string): string -> bool {
    needle => Contains(hay, Lower(needle))
  }

  /** The test "the identifier's value, lower-cased, is in the URL or the
      content head". */
  function UidFoundIn(url: string, head: string): string -> bool {
    uid => ':' in uid && (Contains(url, Lower(UidValue(uid))) || Contains(head, Lower(UidValue(uid))))
  }

  /** How many of `needles`, lower-cased, occur in `hay`. */
  function CountFound(needles: seq<string>, hay: string): (n: nat)
    ensures n <= |needles|
    decreases |needles|
  {
    if |needles| == 0 then 0
    else (if Contains(hay, Lower(needles[0])) then 1 else 0) + CountFound(needles[1..], hay)
  }

  /** How many identifiers have their value in the URL or the content head. */
  function CountUidHits(uids: seq<string>, url: string, head: string): (n: nat)
    requires forall i :: 0 <= i < |uids| ==> ':' in uids[i]
    ensures n <= |uids|
    decreases |uids|
  {
    if |uids| == 0 then 0
    else
      var v := Lower(UidValue(uids[0]));
      (if Contains(url, v) || Contains(head, v) then 1 else 0) + CountUidHits(uids[1..], url, head)
  }

  /** `CountFound` counts exactly the needles that pass `FoundIn`. */
  lemma {:induction false} CountFoundIsFilter(needles: seq<string>, hay: string)
    ensures CountFound(needles, hay) == |Sorting.Filter(needles, FoundIn(hay))|
    decreases |needles|
  {
    if |needles| > 0 {
      CountFoundIsFilter(needles[1..], hay);
    }
  }

  /** `CountUidHits` counts exactly the identifiers that pass `UidFoundIn`. */
  lemma {:induction false} CountUidHitsIsFilter(uids: seq<string>, url: string, head: string)
    requires forall i :: 0 <= i < |uids| ==> ':' in uids[i]
    ensures CountUidHits(uids, url, head) == |Sorting.Filter(uids, UidFoundIn(url, head))|
    decreases |uids|
  {
    if |uids| > 0 {
      CountUidHitsIsFilter(uids[1..], url, head);
    }
  }

  predicate AllFound(parts: seq<string>, hay: string) {
    forall i :: 0 <= i < |parts| ==> Contains(hay, parts[i])
  }

  predicate AnyFound(parts: seq<string>, hay: string) {
    exists i :: 0 <= i < |parts| && Contains(hay, parts[i])
  }

  /** The candidate profile the score is computed against. */
  datatype Profile = Profile(name: string, companies: seq<string>, schools: seq<string>, uniqueIds: seq<string>)

  predicate WellFormedIds(p: Profile) {
    forall i :: 0 <= i < |p.uniqueIds| ==> ':' in p.uniqueIds[i]
  }

  /** 5 when every word of the name is in the first 500 characters, else 2
      when some word is, else 0. */
  function NamePoints(name: string, head: string): (points: int)
    ensures points == 5 || points == 2 || points == 0
    ensures points == 5 <==> AllFound(Words(Lower(name)), head)
    ensures points == 2 <==> !AllFound(Words(Lower(name)), head) && AnyFound(Words(Lower(name)), head)
    ensures points == 0 <==> !AllFound(Words(Lower(name)), head) && !AnyFound(Words(Lower(name)), head)
  {
    var parts := Words(Lower(name));
    if AllFound(parts, head) then 5 else if AnyFound(parts, head) then 2 else 0
  }

  /** The inline relevance score of `web_research_node`. */
  function Relevance(p: Profile, hit: Hit): (score: int)
    requires WellFormedIds(p)
    ensures score >= 0
    ensures score <= 5 + 3 * (|p.companies| + |p.schools|) + 10 * |p.uniqueIds|
  {
    var content := Lower(hit.content.GetOr(""));
    var url := Lower(hit.url.GetOr(""));
    NamePoints(p.name, Take(content, 500))
    + 3 * CountFound(p.companies, Take(content, 1000))
    + 3 * CountFound(p.schools, Take(content, 1000))
    + 10 * CountUidHits(p.uniqueIds, url, Take(content, 500))
  }

  /** The score itself: the name points from the first 500 characters, 3 per
      company and per school found in the first 1000, and 10 per identifier
      whose value is in the URL or the first 500. */
  lemma RelevanceScore(p: Profile, hit: Hit)
    requires WellFormedIds(p)
    ensures var content := Lower(hit.content.GetOr(""));
      Relevance(p, hit)
        == NamePoints(p.name, Take(content, 500))
           + 3 * |Sorting.Filter(p.companies, FoundIn(Take(content, 1000)))|
           + 3 * |Sorting.Filter(p.schools, FoundIn(Take(content, 1000)))|
           + 10 * |Sorting.Filter(p.uniqueIds, UidFoundIn(Lower(hit.url.GetOr("")), Take(content, 500)))|
  {
    var content := Lower(hit.content.GetOr(""));
    CountFoundIsFilter(p.companies, Take(content, 1000));
    CountFoundIsFilter(p.schools, Take(content, 1000));
    CountUidHitsIsFilter(p.uniqueIds, Lower(hit.url.GetOr("")), Take(content, 500));
  }

  const MinRelevance := 3

  /** A hit in which some profile identifier appears is always kept. */
  lemma IdentifierHitIsKept(p: Profile, hit: Hit)
    requires WellFormedIds(p)
    requires CountUidHits(p.uniqueIds, Lower(hit.url.GetOr("")), Take(Lower(hit.content.GetOr("")), 500)) > 0
    ensures Relevance(p, hit) >= MinRelevance
  {
  }

  /** A hit that only shares part of the name, and no company, school or
      identifier, scores 2 and is dropped. */
  lemma PartialNameAloneIsDropped(p: Profile, hit: Hit)
    requires WellFormedIds(p)
    requires var content := Lower(hit.content.GetOr(""));
      && !AllFound(Words(Lower(p.name)), Take(content, 500))
      && CountFound(p.companies, Take(content, 1000)) == 0
      && CountFound(p.schools, Take(content, 1000)) == 0
      && CountUidHits(p.uniqueIds, Lower(hit.url.GetOr("")), Take(content, 500)) == 0
    ensures Relevance(p, hit) < MinRelevance
  {
  }

  /** A name with no words (empty or blank) counts as fully matched, so every
      hit scores at least 5 and is kept. */
  lemma BlankNameKeepsEverything(p: Profile, hit: Hit)
    requires WellFormedIds(p)
    requires Words(Lower(p.name)) == []
    ensures Relevance(p, hit) >= 5
  {
  }

  /** The stored form of a hit: missing keys become "", content is cut to
      300 characters. */
  function Record(p: Profile, hit: Hit): (h: ScoredHit)
    requires WellFormedIds(p)
    ensures |h.content| <= 300
    ensures h.relevance == Relevance(p, hit)
  {
    ScoredHit(hit.title.GetOr(""), hit.url.GetOr(""), Take(hit.content.GetOr(""), 300), Relevance(p, hit))
  }

  function RelevanceKey(h: ScoredHit): real {
    h.relevance as real
  }

  function IsRelevant(h: ScoredHit): bool {
    h.relevance >= MinRelevance
  }

  function Records(p: Profile, hits: seq<Hit>): (r: seq<ScoredHit>)
    requires WellFormedIds(p)
    ensures |r| == |hits|
    ensures forall i :: 0 <= i < |r| ==> r[i] == Record(p, hits[i])
  {
    seq(|hits|, i requires 0 <= i < |hits| => Record(p, hits[i]))
  }

  /** The per-query filtering: score every hit, keep those scoring at least
      3, most relevant first (ties in input order). */
  function FilterByRelevance(p: Profile, hits: seq<Hit>): (r: seq<ScoredHit>)
    requires WellFormedIds(p)
    ensures Sorting.SortedDesc(r, RelevanceKey)
    ensures forall i :: 0 <= i < |r| ==> r[i].relevance >= MinRelevance
    ensures forall i :: 0 <= i < |hits| ==> (Record(p, hits[i]) in r <==> Relevance(p, hits[i]) >= MinRelevance)
    ensures multiset(r) == multiset(Sorting.Filter(Records(p, hits), IsRelevant))
  {
    var kept := Sorting.Filter(Records(p, hits), IsRelevant);
    var r := Sorting.SortDesc(kept, RelevanceKey);
    KeptRecords(p, hits);
    forall i | 0 <= i < |r| ensures r[i].relevance >= MinRelevance {
      assert r[i] in multiset(kept);
    }
    r
  }

  /** Kept records with equal scores stay in the order of their hits. */
  lemma FilterByRelevanceIsStable(p: Profile, hits: seq<Hit>, score: int)
    requires WellFormedIds(p)
    ensures Sorting.Filter(FilterByRelevance(p, hits), Sorting.KeyIs(RelevanceKey, score as real))
         == Sorting.Filter(Sorting.Filter(Records(p, hits), IsRelevant), Sorting.KeyIs(RelevanceKey, score as real))
  {
    Sorting.SortDescIsStable(Sorting.Filter(Records(p, hits), IsRelevant), RelevanceKey, score as real);
  }

  /** A record survives filtering exactly when its hit scores at least 3. */
  lemma KeptRecords(p: Profile, hits: seq<Hit>)
    requires WellFormedIds(p)
    ensures forall i :: 0 <= i < |hits| ==>
      ((Record(p, hits[i]) in multiset(Sorting.Filter(Records(p, hits), IsRelevant)))
         <==> Relevance(p, hits[i]) >= MinRelevance)
    ensures forall x: ScoredHit :: x in multiset(Sorting.Filter(Records(p, hits), IsRelevant)) ==> x.relevance >= MinRelevance
  {
    var recs := Records(p, hits);
    var kept := Sorting.Filter(recs, IsRelevant);
    forall i | 0 <= i < |hits|
      ensures Record(p, hits[i]) in multiset(kept) <==> Relevance(p, hits[i]) >= MinRelevance
    {
      Sorting.FilterCounts(recs, IsRelevant, Record(p, hits[i]));
      assert recs[i] == Record(p, hits[i]);
      assert Record(p, hits[i]) in multiset(recs);
    }
    forall x: ScoredHit | x in multiset(kept) ensures x.relevance >= MinRelevance {
      var j :| 0 <= j < |kept| && kept[j] == x;
      assert IsRelevant(kept[j]);
    }
  }

  /** Only the first three kept hits go into the research context, and none
      of the hits left out is more relevant than any of them. */
  function ContextHits(kept: seq<ScoredHit>): (top: seq<ScoredHit>)
    requires Sorting.SortedDesc(kept, RelevanceKey)
    ensures |top| == if |kept| < 3 then |kept| else 3
    ensures top == kept[..|top|]
    ensures forall i, j :: 0 <= i < |top| <= j < |kept| ==> kept[j].relevance <= top[i].relevance
  {
    Take(kept, 3)
  }
}

=== FILE: recruiter_types.dfy ===
/** The structured records the backend agent passes between its nodes: the
    parsed job description, the parsed resume, the web-research summary and
    the fit assessment, plus the LangGraph state map that carries them. */
module RecruiterTypes {
  import opened Wrappers

  datatype JobDescription = JobDescription(
    title: string,
    location: Option<string>,
    responsibilities: seq<string>,
    requiredQualifications: seq<string>,
    preferredQualifications: Option<seq<string>>,
    topSkills: seq<string>)

  datatype Personal = Personal(
    name: string,
    email: Option<string>,
    phone: Option<string>,
    workExperience: Option<real>)

  datatype EducationEntry = EducationEntry(
    degree: string,
    institution: string,
    startYear: Option<int>,
    endYear: Option<int>)

  datatype ExperienceEntry = ExperienceEntry(
    title: string,
    company: string,
    startDate: Option<string>,
    endDate: Option<string>,
    description: Option<string>,
    location: Option<string>)

  datatype Resume = Resume(
    personal: Personal,
    education: seq<EducationEntry>,
    experience: seq<ExperienceEntry>,
    skills: seq<string>,
    certifications: Option<seq<string>>,
    projects: Option<seq<string>>)

  datatype WebResearch = WebResearch(
    githubRepos: seq<string>,
    blogs: seq<string>,
    conferenceTalks: seq<string>,
    socialMentions: seq<string>)

  /** One result of a web search, as both the backend agent and the
      stand-alone agent receive it from the search engine; each key may be
      missing. */
  datatype Hit = Hit(title: Option<string>, url: Option<string>, content: Option<string>)

  datatype MatrixEntry = MatrixEntry(skill: string, required: bool, candidateHas: bool)

  datatype ScoreDetails = ScoreDetails(
    skillMatchPercentage: real,
    experienceYears: real,
    domainSignal: string)

  datatype FitAssessment = FitAssessment(
    fitScore: string,
    scoreDetails: ScoreDetails,
    comparisonMatrix: seq<MatrixEntry>,
    reasoning: string)

  /** A value stored in the graph state under one of the keys below. */
  datatype Value =
    | Text(text: string)
    | JdValue(jd: JobDescription)
    | ResumeValue(resume: Resume)
    | UrlList(urls: seq<string>)
    | WebValue(web: WebResearch)
    | UsernameMap(usernames: map<string, string>)
    | FitValue(fit: FitAssessment)

  /** The keys of the graph state (the `State` typed dictionary plus the two
      keys the nodes add beyond it). */
  datatype Key =
    | CandidateNameKey
    | JobDescriptionKey
    | ResumeTextKey
    | JdStructuredKey
    | ResumeStructuredKey
    | ExtractedUrlsKey
    | WebStructuredKey
    | UsernamesKey
    | FitAssessmentKey
    | FormattedOutputKey

  /** The dictionary key each constructor stands for. */
  function KeyName(k: Key): string {
    match k
    case CandidateNameKey => "candidate_name"
    case JobDescriptionKey => "job_description"
    case ResumeTextKey => "resume_text"
    case JdStructuredKey => "jd_structured"
    case ResumeStructuredKey => "resume_structured"
    case ExtractedUrlsKey => "extracted_urls"
    case WebStructuredKey => "web_structured"
    case UsernamesKey => "usernames"
    case FitAssessmentKey => "fit_assessment"
    case FormattedOutputKey => "formatted_output"
  }

  type State = map<Key, Value>

  /** `after` is `before` with the keys in `added` set or overwritten and
      every other entry left as it was (`{**state, ...}`). */
  ghost predicate AddsOnly(before: State, after: State, added: set<Key>) {
    && (forall k :: k in after <==> k in before || k in added)
    && (forall k :: k in before && k !in added ==> after[k] == before[k])
  }

  /** `state.get(key, default)` for a text entry. */
  function TextOr(state: State, key: Key, default: string): (s: string)
    ensures key !in state ==> s == default
    ensures key in state && state[key].Text? ==> s == state[key].text
  {
    if key in state && state[key].Text? then state[key].text else default
  }
}

=== FILE: run_agent_form.dfy ===
/** The "run agent" form of the frontend: the candidate name plus a resume
    and a job description, each given either as an uploaded file or as typed
    text. Submitting validates the inputs in a fixed order, reports the first
    problem only, and otherwise builds the multipart payload. */
module RunAgentForm {
  import opened Wrappers

  /** Which input a document comes from; the page's `"file" | "text"`. */
  datatype InputMethod = FileInput | TextInput

  /** A browser `File`: only what the form reads from it. */
  datatype UploadedFile = UploadedFile(name: string, mimeType: string, size: nat)

  /** One upload slot (`FileItem` in the page). */
  datatype FileItem = FileItem(
    file: Option<UploadedFile>,
    name: string,
    fileType: string,
    size: Option<nat>,
    preview: Option<string>)

  /** The slot value with no file chosen. */
  const EmptyItem := FileItem(None, "", "", None, None)

  datatype Slot = ResumeSlot | JobDescriptionSlot

  /** The page's component state. */
  datatype Form = Form(
    candidateName: string,
    resume: FileItem,
    jobDescription: FileItem,
    resumeMethod: InputMethod,
    jobDescriptionMethod: InputMethod,
    resumeText: string,
    jobDescriptionText: string)

  /** The state the page is first rendered with: both documents expected as
      files, nothing entered yet. */
  function InitialForm(): (f: Form)
    ensures f.candidateName == "" && f.resumeText == "" && f.jobDescriptionText == ""
    ensures f.resume.file.None? && f.jobDescription.file.None?
    ensures f.resumeMethod == FileInput && f.jobDescriptionMethod == FileInput
  {
    Form("", EmptyItem, EmptyItem, FileInput, FileInput, "", "")
  }

  function ItemOf(f: Form, slot: Slot): FileItem {
    if slot == ResumeSlot then f.resume else f.jobDescription
  }

  function Other(slot: Slot): Slot {
    if slot == ResumeSlot then JobDescriptionSlot else ResumeSlot
  }

  /** Everything in the form except the two upload slots. */
  predicate SameTypedInputs(f: Form, g: Form) {
    && f.candidateName == g.candidateName
    && f.resumeMethod == g.resumeMethod && f.jobDescriptionMethod == g.jobDescriptionMethod
    && f.resumeText == g.resumeText && f.jobDescriptionText == g.jobDescriptionText
  }

  /** The input switch: it is checked while the method is "file". */
  function SwitchChecked(m: InputMethod): (checked: bool)
    ensures checked <==> m == FileInput
  {
    m == FileInput
  }

  /** `onCheckedChange`: checked selects "file", unchecked selects "text". */
  function MethodFromSwitch(checked: bool): (m: InputMethod)
    ensures m == FileInput <==> checked
    ensures m == TextInput <==> !checked
  {
    if checked then FileInput else TextInput
  }

  /** Toggling the switch shown for a method gives that method back, and the
      switch shown for the chosen method is the one that was toggled. */
  lemma SwitchRoundTrip(m: InputMethod, checked: bool)
    ensures MethodFromSwitch(SwitchChecked(m)) == m
    ensures SwitchChecked(MethodFromSwitch(checked)) == checked
  {
  }

  /** `handleFileChange` / `handleDrop`: the chosen file fills the slot. */
  function SelectFile(f: Form, slot: Slot, file: UploadedFile): (g: Form)
    ensures ItemOf(g, slot).file == Some(file)
    ensures ItemOf(g, slot).name == file.name && ItemOf(g, slot).size == Some(file.size)
    ensures ItemOf(g, slot).fileType == file.mimeType && ItemOf(g, slot).preview.None?
    ensures ItemOf(g, Other(slot)) == ItemOf(f, Other(slot))
    ensures SameTypedInputs(f, g)
  {
    var item := FileItem(Some(file), file.name, file.mimeType, Some(file.size), None);
    if slot == ResumeSlot then f.(resume := item) else f.(jobDescription := item)
  }

  /** `removeFile`: the targeted slot becomes empty; the other slot and
      every typed input are untouched. */
  function RemoveFile(f: Form, slot: Slot): (g: Form)
    ensures ItemOf(g, slot) == EmptyItem
    ensures ItemOf(g, Other(slot)) == ItemOf(f, Other(slot))
    ensures SameTypedInputs(f, g)
  {
    if slot == ResumeSlot then f.(resume := EmptyItem) else f.(jobDescription := EmptyItem)
  }

  /** Removing a file just chosen leaves the form as if it had never been
      chosen. */
  lemma RemoveAfterSelect(f: Form, slot: Slot, file: UploadedFile)
    ensures RemoveFile(SelectFile(f, slot, file), slot) == RemoveFile(f, slot)
  {
  }

  const NameMissing := "Please enter candidate name"
  const ResumeFileMissing := "Please upload a resume file"
  const ResumeTextMissing := "Please enter resume text"
  const JobDescriptionFileMissing := "Please upload a job description file"
  const JobDescriptionTextMissing := "Please enter job description text"

  /** A multipart field value: a file part or a text part. */
  datatype FieldValue = FilePart(file: UploadedFile) | TextPart(text: string)
  datatype FormEntry = FormEntry(key: string, value: FieldValue)

  /** What a document contributes: the file in file mode, the text otherwise. */
  predicate Provided(mode: InputMethod, item: FileItem, text: string) {
    if mode == FileInput then item.file.Some? else text != ""
  }

  function ProvidedValue(mode: InputMethod, item: FileItem, text: string): FieldValue
    requires Provided(mode, item, text)
  {
    if mode == FileInput then FilePart(item.file.value) else TextPart(text)
  }

  /** Every check that fails, listed in the order the page runs them. */
  function Problems(f: Form): seq<string> {
    (if f.candidateName == "" then [NameMissing] else [])
    + (if f.resumeMethod == FileInput && f.resume.file.None? then [ResumeFileMissing] else [])
    + (if f.resumeMethod == TextInput && f.resumeText == "" then [ResumeTextMissing] else [])
    + (if f.jobDescriptionMethod == FileInput && f.jobDescription.file.None? then [JobDescriptionFileMissing] else [])
    + (if f.jobDescriptionMethod == TextInput && f.jobDescriptionText == "" then [JobDescriptionTextMissing] else [])
  }

  /** The `FormData` appends (lines after validation): the name, then each
      document's file or text, whichever its method selects. */
  function BuildPayload(f: Form): seq<FormEntry> {
    [FormEntry("candidate_name", TextPart(f.candidateName))]
    + (if f.resumeMethod == FileInput && f.resume.file.Some? then [FormEntry("resume", FilePart(f.resume.file.value))]
       else if f.resumeMethod == TextInput then [FormEntry("resume", TextPart(f.resumeText))]
       else [])
    + (if f.jobDescriptionMethod == FileInput && f.jobDescription.file.Some? then [FormEntry("job_description", FilePart(f.jobDescription.file.value))]
       else if f.jobDescriptionMethod == TextInput then [FormEntry("job_description", TextPart(f.jobDescriptionText))]
       else [])
  }

  /** `handleSubmit` up to the dispatch: the first failing check's message,
      or the payload. */
  function Submit(f: Form): (r: Result<seq<FormEntry>, string>)
    ensures r.Failure? <==> |Problems(f)| > 0
    ensures r.Failure? ==> r.error == Problems(f)[0]
    ensures f.candidateName == "" ==> r == Failure(NameMissing)
    ensures r.Success? <==>
      f.candidateName != ""
      && Provided(f.resumeMethod, f.resume, f.resumeText)
      && Provided(f.jobDescriptionMethod, f.jobDescription, f.jobDescriptionText)
    ensures r.Success? ==>
      && |r.value| == 3
      && r.value[0] == FormEntry("candidate_name", TextPart(f.candidateName))
      && r.value[1] == FormEntry("resume", ProvidedValue(f.resumeMethod, f.resume, f.resumeText))
      && r.value[2] == FormEntry("job_description",
                                 ProvidedValue(f.jobDescriptionMethod, f.jobDescription, f.jobDescriptionText))
  {
    if f.candidateName == "" then Failure(NameMissing)
    else if f.resumeMethod == FileInput && f.resume.file.None? then Failure(ResumeFileMissing)
    else if f.resumeMethod == TextInput && f.resumeText == "" then Failure(ResumeTextMissing)
    else if f.jobDescriptionMethod == FileInput && f.jobDescription.file.None? then Failure(JobDescriptionFileMissing)
    else if f.jobDescriptionMethod == TextInput && f.jobDescriptionText == "" then Failure(JobDescriptionTextMissing)
    else Success(BuildPayload(f))
  }

  /** The job-description checks are reached only once the name and the
      resume are acceptable: a job-description message means both passed. */
  lemma JobDescriptionCheckedLast(f: Form)
    requires Submit(f).Failure?
    requires Submit(f).error in {JobDescriptionFileMissing, JobDescriptionTextMissing}
    ensures f.candidateName != ""
    ensures Provided(f.resumeMethod, f.resume, f.resumeText)
  {
  }

  /** Toggling a document to text mode and typing into it clears a missing
      file complaint for that document. */
  lemma TypedTextSatisfiesResumeCheck(f: Form, text: string)
    requires f.candidateName != "" && text != ""
    ensures Submit(f.(resumeMethod := TextInput, resumeText := text)).Failure? ==>
      Submit(f.(resumeMethod := TextInput, resumeText := text)).error
        in {JobDescriptionFileMissing, JobDescriptionTextMissing}
  {
  }
}

=== FILE: sorting.dfy ===
/** The list operations the recruiter code gets from Python: keeping the
    elements that satisfy a test (a list comprehension with `if`), and
    `list.sort(key=..., reverse=True)`, which is stable, so elements with
    equal keys stay in their original order. */
module Sorting {

  /** Keys never increase from left to right. */
  ghost predicate SortedDesc<T>(s: seq<T>, key: T -> real) {
    forall i, j :: 0 <= i < j < |s| ==> key(s[i]) >= key(s[j])
  }

  /** `[x for x in s if p(x)]` */
  function Filter<T>(s: seq<T>, p: T -> bool): (r: seq<T>)
    ensures |r| <= |s|
    ensures forall i :: 0 <= i < |r| ==> p(r[i])
  {
    if |s| == 0 then []
    else (if p(s[0]) then [s[0]] else []) + Filter(s[1..], p)
  }

  /** `Filter` keeps every occurrence of a passing element and nothing else. */
  lemma {:induction false} FilterCounts<T>(s: seq<T>, p: T -> bool, x: T)
    ensures multiset(Filter(s, p))[x] == if p(x) then multiset(s)[x] else 0
    decreases |s|
  {
    if |s| > 0 {
      FilterCounts(s[1..], p, x);
      assert s == [s[0]] + s[1..];
    }
  }

  /** Every kept element comes from the input. */
  lemma {:induction false} FilterSubseq<T>(s: seq<T>, p: T -> bool)
    ensures forall i :: 0 <= i < |Filter(s, p)| ==> Filter(s, p)[i] in s
    decreases |s|
  {
    if |s| > 0 {
      FilterSubseq(s[1..], p);
    }
  }

  /** Filtering commutes with concatenation, so the kept elements keep their
      relative order. */
  lemma {:induction false} FilterConcat<T>(a: seq<T>, b: seq<T>, p: T -> bool)
    ensures Filter(a + b, p) == Filter(a, p) + Filter(b, p)
    decreases |a|
  {
    if |a| > 0 {
      assert (a + b)[1..] == a[1..] + b;
      FilterConcat(a[1..], b, p);
    } else {
      assert a + b == b;
    }
  }

  /** `[f(x) for x in s]` */
  function Map<T, U>(s: seq<T>, f: T -> U): (r: seq<U>)
    ensures |r| == |s|
    ensures forall i :: 0 <= i < |s| ==> r[i] == f(s[i])
  {
    seq(|s|, i requires 0 <= i < |s| => f(s[i]))
  }

  /** Taking out the element at `k` takes one occurrence out of the multiset. */
  lemma RemoveAt<T>(t: seq<T>, k: nat)
    requires k < |t|
    ensures multiset(t) == multiset(t[..k] + t[k + 1..]) + multiset{t[k]}
  {
    assert t == t[..k] + [t[k]] + t[k + 1..];
  }

  lemma MapRemoveAt<T, U>(t: seq<T>, k: nat, f: T -> U)
    requires k < |t|
    ensures multiset(Map(t, f)) == multiset(Map(t[..k] + t[k + 1..], f)) + multiset{f(t[k])}
  {
    var m := Map(t, f);
    RemoveAt(m, k);
    assert m[..k] + m[k + 1..] == Map(t[..k] + t[k + 1..], f);
  }

  lemma MapCons<T, U>(s: seq<T>, f: T -> U)
    requires |s| > 0
    ensures multiset(Map(s, f)) == multiset(Map(s[1..], f)) + multiset{f(s[0])}
  {
    assert Map(s, f) == [f(s[0])] + Map(s[1..], f);
  }

  lemma Cancel<T>(a: multiset<T>, b: multiset<T>, x: T)
    requires a + multiset{x} == b + multiset{x}
    ensures a == b
  {
    forall y ensures a[y] == b[y] {
      assert (a + multiset{x})[y] == (b + multiset{x})[y];
    }
  }

  /** A position where an element of the multiset occurs. */
  lemma IndexOf<T>(t: seq<T>, x: T) returns (k: nat)
    requires x in multiset(t)
    ensures k < |t| && t[k] == x
  {
    k :| 0 <= k < |t| && t[k] == x;
  }

  /** Mapping two rearrangements of one list gives rearrangements of one
      list. */
  lemma {:induction false} MapKeepsPermutation<T, U>(s: seq<T>, t: seq<T>, f: T -> U)
    requires multiset(s) == multiset(t)
    ensures multiset(Map(s, f)) == multiset(Map(t, f))
    decreases |s|
  {
    if |s| == 0 {
      assert |t| == |multiset(t)| == 0;
    } else {
      var k := IndexOf(t, s[0]);
      var rest := t[..k] + t[k + 1..];
      RemoveAt(t, k);
      RemoveAt(s, 0);
      assert s[..0] + s[1..] == s[1..];
      Cancel(multiset(s[1..]), multiset(rest), s[0]);
      MapKeepsPermutation(s[1..], rest, f);
      MapRemoveAt(t, k, f);
      MapCons(s, f);
    }
  }

  /** The test "has key `k`". */
  function KeyIs<T>(key: T -> real, k: real): T -> bool {
    e => key(e) == k
  }

  /** Inserts `x` in front of the first element whose key is not larger. */
  function InsertDesc<T>(x: T, s: seq<T>, key: T -> real): (r: seq<T>)
    requires SortedDesc(s, key)
    ensures SortedDesc(r, key)
    ensures multiset(r) == multiset(s) + multiset{x}
    ensures |r| == |s| + 1
    ensures r[0] == x || (|s| > 0 && r[0] == s[0])
    decreases |s|
  {
    if |s| == 0 then [x]
    else if key(s[0]) > key(x) then
      var t := InsertDesc(x, s[1..], key);
      assert s == [s[0]] + s[1..];
      ConsSorted(s[0], t, key);
      [s[0]] + t
    else
      [x] + s
  }

  /** A head no smaller than the first key of a sorted list keeps it sorted. */
  lemma ConsSorted<T>(h: T, t: seq<T>, key: T -> real)
    requires SortedDesc(t, key)
    requires |t| > 0 ==> key(h) >= key(t[0])
    ensures SortedDesc([h] + t, key)
  {
    forall i, j | 0 <= i < j < |[h] + t| ensures key(([h] + t)[i]) >= key(([h] + t)[j]) {
      if i > 0 {
        assert ([h] + t)[i] == t[i - 1];
      }
      assert ([h] + t)[j] == t[j - 1];
    }
  }

  /** Stable sort by decreasing key. */
  function SortDesc<T>(s: seq<T>, key: T -> real): (r: seq<T>)
    ensures SortedDesc(r, key)
    ensures multiset(r) == multiset(s)
    ensures |r| == |s|
    decreases |s|
  {
    if |s| == 0 then []
    else
      assert s == [s[0]] + s[1..];
      assert |multiset(SortDesc(s[1..], key))| == |s| - 1;
      InsertDesc(s[0], SortDesc(s[1..], key), key)
  }

  lemma FilterOne<T>(e: T, p: T -> bool)
    ensures Filter([e], p) == if p(e) then [e] else []
  {
    assert [e][1..] == [];
  }

  lemma {:induction false} InsertDescIsStable<T>(x: T, s: seq<T>, key: T -> real, k: real)
    requires SortedDesc(s, key)
    ensures Filter(InsertDesc(x, s, key), KeyIs(key, k)) == Filter([x] + s, KeyIs(key, k))
    decreases |s|
  {
    if |s| > 0 && key(s[0]) > key(x) {
      var p := KeyIs(key, k);
      var t := InsertDesc(x, s[1..], key);
      var fs0 := Filter([s[0]], p);
      var fx := Filter([x], p);
      var fr := Filter(s[1..], p);
      assert Filter(InsertDesc(x, s, key), p) == fs0 + (fx + fr) by {
        InsertDescIsStable(x, s[1..], key, k);
        assert InsertDesc(x, s, key) == [s[0]] + t;
        FilterConcat([s[0]], t, p);
        FilterConcat([x], s[1..], p);
      }
      assert Filter([x] + s, p) == fx + (fs0 + fr) by {
        assert s == [s[0]] + s[1..];
        FilterConcat([s[0]], s[1..], p);
        FilterConcat([x], s, p);
      }
      SwapDistinctKeys(s[0], x, fr, key, k);
    }
  }

  /** Two elements with different keys are never both kept, so their order
      does not matter to the filter. */
  lemma SwapDistinctKeys<T>(a: T, b: T, rest: seq<T>, key: T -> real, k: real)
    requires key(a) != key(b)
    ensures Filter([a], KeyIs(key, k)) + (Filter([b], KeyIs(key, k)) + rest)
         == Filter([b], KeyIs(key, k)) + (Filter([a], KeyIs(key, k)) + rest)
  {
    FilterOne(a, KeyIs(key, k));
    FilterOne(b, KeyIs(key, k));
  }

  /** Among elements with equal keys the sorted list keeps the input order:
      for every key, the elements carrying it appear in the same sequence. */
  lemma {:induction false} SortDescIsStable<T>(s: seq<T>, key: T -> real, k: real)
    ensures Filter(SortDesc(s, key), KeyIs(key, k)) == Filter(s, KeyIs(key, k))
    decreases |s|
  {
    if |s| > 0 {
      var p := KeyIs(key, k);
      SortDescIsStable(s[1..], key, k);
      InsertDescIsStable(s[0], SortDesc(s[1..], key), key, k);
      FilterConcat([s[0]], SortDesc(s[1..], key), p);
      assert s == [s[0]] + s[1..];
      FilterConcat([s[0]], s[1..], p);
    }
  }
}

=== FILE: text.dfy ===
/** String helpers with the semantics the recruiter code relies on:
    Python/JavaScript single-separator `split`, `join`, `strip`, slicing
    `s[:n]`, substring tests, and case mapping (ASCII letters only). */
module Text {

  /** `s.startswith(prefix)` */
  predicate StartsWith(s: string, prefix: string) {
    |prefix| <= |s| && s[..|prefix|] == prefix
  }

  /** `s.endswith(suffix)` */
  predicate EndsWith(s: string, suffix: string) {
    |suffix| <= |s| && s[|s| - |suffix|..] == suffix
  }

  /** Python's `sub in s` on strings. */
  predicate Contains(s: string, sub: string) {
    StartsWith(s, sub) || (|s| > 0 && Contains(s[1..], sub))
  }

  /** Python's slice `s[:n]` for a non-negative `n`. */
  function Take<T>(s: seq<T>, n: nat): (r: seq<T>)
    ensures |r| == if n < |s| then n else |s|
    ensures r == s[..|r|]
  {
    if n < |s| then s[..n] else s
  }

  function LowerChar(c: char): char {
    if 'A' <= c <= 'Z' then (c as int + 32) as char else c
  }

  function UpperChar(c: char): char {
    if 'a' <= c <= 'z' then (c as int - 32) as char else c
  }

  predicate IsLowerLetter(c: char) {
    'a' <= c <= 'z'
  }

  /** `s.lower()` restricted to ASCII letters. */
  function Lower(s: string): (r: string)
    ensures |r| == |s|
    ensures forall i :: 0 <= i < |s| ==> r[i] == LowerChar(s[i])
  {
    seq(|s|, i requires 0 <= i < |s| => LowerChar(s[i]))
  }

  /** `s.toUpperCase()` restricted to ASCII letters. */
  function Upper(s: string): (r: string)
    ensures |r| == |s|
    ensures forall i :: 0 <= i < |s| ==> r[i] == UpperChar(s[i])
    ensures forall i :: 0 <= i < |r| ==> !IsLowerLetter(r[i])
  {
    seq(|s|, i requires 0 <= i < |s| => UpperChar(s[i]))
  }

  /** The characters Python's `str.isspace()` accepts; `strip()` and the
      argument-less `split()` use this set. */
  const Whitespace: set<char> := {
    '\t', '\n', '\U{B}', '\U{C}', '\r', '\U{1C}', '\U{1D}', '\U{1E}', '\U{1F}', ' ',
    '\U{85}', '\U{A0}', '\U{1680}',
    '\U{2000}', '\U{2001}', '\U{2002}', '\U{2003}', '\U{2004}', '\U{2005}',
    '\U{2006}', '\U{2007}', '\U{2008}', '\U{2009}', '\U{200A}',
    '\U{2028}', '\U{2029}', '\U{202F}', '\U{205F}', '\U{3000}'
  }

  predicate IsSpace(c: char) {
    c in Whitespace
  }

  /** Splits `s` at every character of `seps`, keeping empty pieces, as
      `"a  b".split(" ")` does in both Python and JavaScript. */
  function Split(s: string, seps: set<char>): (parts: seq<string>)
    ensures |parts| >= 1
    ensures forall i, k :: 0 <= i < |parts| && 0 <= k < |parts[i]| ==> parts[i][k] !in seps
    decreases |s|
  {
    if |s| == 0 then [""]
    else
      var rest := Split(s[1..], seps);
      if s[0] in seps then [""] + rest
      else [[s[0]] + rest[0]] + rest[1..]
  }

  /** `sep.join(parts)` */
  function Join(parts: seq<string>, sep: string): string
    decreases |parts|
  {
    if |parts| == 0 then ""
    else if |parts| == 1 then parts[0]
    else parts[0] + sep + Join(parts[1..], sep)
  }

  /** The pieces of a list that are non-empty, in order. */
  function NonEmpty(parts: seq<string>): (r: seq<string>)
    ensures |r| <= |parts|
    ensures forall i :: 0 <= i < |r| ==> r[i] != [] && r[i] in parts
    ensures forall p :: p in parts && p != [] ==> p in r
  {
    if |parts| == 0 then []
    else if parts[0] == [] then NonEmpty(parts[1..])
    else [parts[0]] + NonEmpty(parts[1..])
  }

  /** Python's argument-less `s.split()`: maximal runs of non-whitespace. */
  function Words(s: string): (r: seq<string>)
    ensures forall i, k :: 0 <= i < |r| && 0 <= k < |r[i]| ==> r[i][k] !in Whitespace
    ensures forall i :: 0 <= i < |r| ==> r[i] != []
  {
    NonEmpty(Split(s, Whitespace))
  }

  /** Number of whitespace characters `s` starts with. */
  function LeadingSpace(s: string): (n: nat)
    ensures n <= |s|
    ensures forall k :: 0 <= k < n ==> IsSpace(s[k])
    ensures n < |s| ==> !IsSpace(s[n])
    decreases |s|
  {
    if |s| > 0 && IsSpace(s[0]) then 1 + LeadingSpace(s[1..]) else 0
  }

  /** Number of whitespace characters `s` ends with. */
  function TrailingSpace(s: string): (n: nat)
    ensures n <= |s|
    ensures forall k :: |s| - n <= k < |s| ==> IsSpace(s[k])
    ensures n < |s| ==> !IsSpace(s[|s| - n - 1])
    decreases |s|
  {
    if |s| > 0 && IsSpace(s[|s| - 1]) then 1 + TrailingSpace(s[..|s| - 1]) else 0
  }

  /** `s.strip()`: the slice of `s` between its leading and its trailing
      whitespace. */
  function Strip(s: string): (r: string)
    ensures LeadingSpace(s) + |r| <= |s|
    ensures r == s[LeadingSpace(s)..LeadingSpace(s) + |r|]
    ensures forall k :: LeadingSpace(s) + |r| <= k < |s| ==> IsSpace(s[k])
    ensures |r| > 0 ==> !IsSpace(r[0]) && !IsSpace(r[|r| - 1])
  {
    var i := LeadingSpace(s);
    var t := s[i..];
    StripTail(s, i, t);
    t[..|t| - TrailingSpace(t)]
  }

  /** The facts `Strip` needs about the slice after the leading whitespace. */
  lemma StripTail(s: string, i: nat, t: string)
    requires i == LeadingSpace(s) && t == s[i..]
    ensures var r := t[..|t| - TrailingSpace(t)];
      && r == s[i..i + |r|]
      && (forall k :: i + |r| <= k < |s| ==> IsSpace(s[k]))
      && (|r| > 0 ==> !IsSpace(r[0]) && !IsSpace(r[|r| - 1]))
  {
    var n := TrailingSpace(t);
    var r := t[..|t| - n];
    forall k | i + |r| <= k < |s| ensures IsSpace(s[k]) {
      assert s[k] == t[k - i];
    }
    if |r| > 0 {
      assert r[0] == s[i];
      assert r[|r| - 1] == t[|t| - n - 1];
    }
  }

  /** Joining the pieces of a single-character split restores the string. */
  lemma {:induction false} JoinSplit(s: string, c: char)
    ensures Join(Split(s, {c}), [c]) == s
    decreases |s|
  {
    if |s| > 0 {
      var rest := Split(s[1..], {c});
      JoinSplit(s[1..], c);
      if s[0] == c {
        assert Split(s, {c}) == [""] + rest;
        assert ([""] + rest)[1..] == rest;
      } else {
        var parts := [[s[0]] + rest[0]] + rest[1..];
        assert Split(s, {c}) == parts;
        if |rest| > 1 {
          assert parts[1..] == rest[1..];
          assert Join(rest, [c]) == rest[0] + [c] + Join(rest[1..], [c]);
          assert s == [s[0]] + s[1..];
        } else {
          assert s == [s[0]] + s[1..];
        }
      }
    }
  }

  lemma {:induction false} SplitWithoutSeparator(p: string, c: char)
    requires c !in p
    ensures Split(p, {c}) == [p]
    decreases |p|
  {
    if |p| > 0 {
      SplitWithoutSeparator(p[1..], c);
      assert p == [p[0]] + p[1..];
    }
  }

  lemma {:induction false} SplitAfterPiece(p: string, c: char, t: string)
    requires c !in p
    ensures Split(p + [c] + t, {c}) == [p] + Split(t, {c})
    decreases |p|
  {
    var s := p + [c] + t;
    if |p| == 0 {
      assert s[1..] == t;
    } else {
      assert s[1..] == p[1..] + [c] + t;
      SplitAfterPiece(p[1..], c, t);
      assert p == [p[0]] + p[1..];
    }
  }

  /** Splitting a join of separator-free pieces gives the pieces back. */
  lemma {:induction false} SplitJoin(parts: seq<string>, c: char)
    requires |parts| >= 1
    requires forall i :: 0 <= i < |parts| ==> c !in parts[i]
    ensures Split(Join(parts, [c]), {c}) == parts
    decreases |parts|
  {
    if |parts| == 1 {
      SplitWithoutSeparator(parts[0], c);
    } else {
      SplitJoin(parts[1..], c);
      SplitAfterPiece(parts[0], c, Join(parts[1..], [c]));
    }
  }

  /** Joining a concatenation puts one separator between the two joins. */
  lemma {:induction false} JoinConcat(a: seq<string>, b: seq<string>, sep: string)
    requires |a| >= 1 && |b| >= 1
    ensures Join(a + b, sep) == Join(a, sep) + sep + Join(b, sep)
    decreases |a|
  {
    if |a| == 1 {
      assert (a + b)[1..] == b;
    } else {
      assert (a + b)[1..] == a[1..] + b;
      JoinConcat(a[1..], b, sep);
    }
  }

  /** A part holding a separator joins like the two parts on either side of
      it. */
  lemma {:induction false} JoinSplitsPart(a: seq<string>, x: string, y: string, b: seq<string>, sep: string)
    ensures Join(a + [x + sep + y] + b, sep) == Join(a + [x, y] + b, sep)
    decreases |a|
  {
    if |a| == 0 {
      assert a + [x + sep + y] + b == [x + sep + y] + b;
      assert a + [x, y] + b == [x] + ([y] + b);
      assert ([x] + ([y] + b))[1..] == [y] + b;
      if |b| > 0 {
        assert ([x + sep + y] + b)[1..] == b;
        assert ([y] + b)[1..] == b;
      }
    } else {
      assert (a + [x + sep + y] + b)[1..] == a[1..] + [x + sep + y] + b;
      assert (a + [x, y] + b)[1..] == a[1..] + [x, y] + b;
      JoinSplitsPart(a[1..], x, y, b, sep);
    }
  }
}

=== FILE: wrappers.dfy ===
/** Failure-compatible wrappers shared by every module of the model.
    `Option` stands for a value that may be absent (`null`, `undefined`, a
    missing key, or a foreign call that raised); `Result` for an operation that
    either produces a value or reports an error message. */
module Wrappers {

  datatype Option<+T> = None | Some(value: T) {

    /** The carried value, or `default` when absent. */
    function GetOr(default: T): T {
      match this
      case Some(v) => v
      case None => default
    }
  }

  datatype Result<+R, +E> = Success(value: R) | Failure(error: E)
}
